=== FILE: README.md ===
# ECommerceBackend order fulfilment, modelled in Dafny

This project models the order-fulfilment core of ECommerceBackend, an
ASP.NET Core shop. Its five controllers take a shopper from registration to
a shipped order:

- `AuthController`: register and log in.
- `ProductController`: query and edit the catalogue.
- `CartController`: read the cart and add to it.
- `OrderController`: check out and list your own orders.
- `AdminController`: list every order and ship one.

`DbInitializer` seeds the first administrator.

The database is one immutable `Store` value. It holds the users, products,
cart rows and orders as sequences in table order, plus one identity counter
per table. Each action is a pure function. It takes the store, the caller
(`Principal`: no token, or a token with optional name and role claims) and
the request. It returns the reply (status code and body) together with the
store after its single `SaveChangesAsync`. A read-only action returns only a
reply.

Request handling runs in the same order as ASP.NET Core:

1. `[Authorize]` turns away a request without a token (401).
2. A role requirement turns away a token without the `Admin` role (403).
3. `[ApiController]` validation rejects a malformed body (400).
4. The action itself runs.

Other modelling choices:

- Money is exact whole cents, matching the `decimal(18,2)` columns.
- Cart and order quantities and the page number and page size are the
  `Int32` subset type. The unchecked `+=` on a cart quantity and the page
  offset `(page - 1) * pageSize` wrap around explicitly (`Base.Wrap32`).
  Keys and the identity counters are unbounded `int`.
- The cart row's required foreign key to its product is modelled: inserting
  a row for a missing product fails the save, and deleting a product
  cascades to the cart rows naming it. Order lines only copy the product
  id and carry no foreign key.
- `FirstOrDefaultAsync` and `FindAsync` return the first matching row.
- `Where` is an order-preserving filter.
- `OrderByDescending(o => o.OrderDate)` is a sort whose contract promises
  only "newest first" and "same orders".

Modules follow the source layout:

- `Base`: option, 32-bit arithmetic, string tests.
- `Models`: entities, the store and its invariant `Valid`.
- `Queries`: lookups and filters.
- `Http`: principal, replies, the Admin gate.
- `Identity`: `GetCurrentUserAsync`.
- `Ordering`: newest-first ordering.
- One module per controller, plus `DbInitializer`.

`Models.Valid` is the store invariant. It requires identity keys to be
distinct and below their counters, one cart row per (user, product) pair,
every cart row to name an existing product, and every order's total to
equal the sum of its lines. A lemma shows that
every writing action keeps it.

## Model

| member | source | states |
|---|---|---|
| Base.Wrap32 | ECommerceBackend/Controllers/CarController.cs:52 | C#'s unchecked `int` result: equal to the exact value when that fits 32 bits, and always congruent to it modulo 2^32 |
| Base.Utf16Length | ECommerceBackend/DTOs/RegisterDto.cs:11 | the length `[MinLength]` measures: UTF-16 code units, between one and two per character, and equal to the character count exactly when every character lies in the Basic Multilingual Plane |
| Queries.FindFirst | ECommerceBackend/Controllers/AuthController.cs:57 | `FirstOrDefaultAsync`: the first index whose element matches, every earlier element failing, or none exactly when no element matches |
| Queries.FirstMatchUnique | ECommerceBackend/Controllers/AdminController.cs:36 | the first match depends only on which positions match |
| Queries.FindUserByName | ECommerceBackend/Controllers/AuthController.cs:57 | `FirstOrDefaultAsync` on the username: the first user with that name, or none exactly when nobody has it |
| Queries.FindProduct | ECommerceBackend/Controllers/ProductController.cs:75 | `FindAsync` on the product key: the first product with that key, or none exactly when the key is absent |
| Queries.LookupProduct | ECommerceBackend/Controllers/OrderController.cs:45-46 | the product `Include(c => c.Product)` loads for a key: a catalogue product with that key, or none exactly when the key is absent |
| Queries.FindCartRow | ECommerceBackend/Controllers/CarController.cs:46-47 | the first cart row of the user for the product, or none exactly when the pair has no row |
| Queries.FindOrder | ECommerceBackend/Controllers/AdminController.cs:36 | `FindAsync` on the order key: the first order with that key, or none exactly when the key is absent |
| Queries.Filter | ECommerceBackend/Controllers/OrderController.cs:47 | LINQ `Where`: exactly the elements that pass, each as often as in the input, all of them passing |
| Queries.FilterKeepsAll | ECommerceBackend/Controllers/ProductController.cs:35-48 | a filter every element passes returns its input unchanged |
| Queries.FilterKeepsPairwise | ECommerceBackend/Controllers/OrderController.cs:83 | removing rows keeps any relation that held between every two rows, such as distinct keys |
| Queries.FilterKeepsCartKeys | ECommerceBackend/Controllers/OrderController.cs:83 | removing cart rows keeps the remaining keys distinct and below the counter |
| Queries.FilterKeepsCartUnique | ECommerceBackend/Controllers/OrderController.cs:83 | removing cart rows keeps one row per (user, product) |
| Queries.FilterKeepsCartProducts | ECommerceBackend/Models/CartItem.cs:15-20 | removing cart rows keeps every remaining row naming an existing product |
| Queries.RowsOf | ECommerceBackend/Controllers/OrderController.cs:45-48 | the caller's cart rows: only that user's rows, each as often as in the cart |
| Queries.RowsNotOf | ECommerceBackend/Controllers/OrderController.cs:83 | the rows `RemoveRange` leaves behind: exactly the other users' rows, each as often as in the cart, in store order |
| Queries.OrdersOf | ECommerceBackend/Controllers/OrderController.cs:30-32 | the caller's orders: only that user's orders, each as often as in the table |
| Queries.RowsNotFor | ECommerceBackend/Models/CartItem.cs:15-20 | the cart rows the delete cascade of a product spares: exactly those naming another product, each as often as in the cart |
| Queries.RowsOfRowsNotOf | ECommerceBackend/Controllers/OrderController.cs:83 | removing one user's cart rows leaves every other user's rows exactly as they were, order included |
| Queries.RowsOfAfterRemoval | ECommerceBackend/Controllers/OrderController.cs:83 | after the removal the user has no cart row left |
| Http.AdminGate | ECommerceBackend/Controllers/AdminController.cs:12 | `[Authorize(Roles = "Admin")]` admits exactly a token with the `Admin` role; no token is 401, any other token 403 |
| Identity.CurrentUser | ECommerceBackend/Controllers/OrderController.cs:92-97 | the caller is a user exactly when the token has a non-empty name claim that some user has, and the user returned is the first user with that name, as `FirstOrDefaultAsync` gives |
| Identity.CurrentUserReadsOnlyUsers | ECommerceBackend/Controllers/CarController.cs:71-79 | the caller's identity depends on the users table alone |
| Ordering.InsertByDate | ECommerceBackend/Controllers/AdminController.cs:28 | inserting into a newest-first list keeps it newest first and adds exactly the one order |
| Ordering.SortNewestFirst | ECommerceBackend/Controllers/OrderController.cs:33 | `OrderByDescending(o => o.OrderDate)`: newest first, same orders with the same multiplicities |
| OrderController.JoinProducts | ECommerceBackend/Controllers/OrderController.cs:45-46 | `Include(c => c.Product)`: each row's product by key, failing exactly when some row names a missing product |
| OrderController.SnapshotItems | ECommerceBackend/Controllers/OrderController.cs:64-77 | one order line per cart row, with the row's product id and quantity and the product's current name and price |
| OrderController.CartLinesTotal | ECommerceBackend/Controllers/OrderController.cs:60 | `Sum(c => c.Product.Price * c.Quantity)` over the joined rows; its contract states only that non-negative prices and quantities give a non-negative total, and `SnapshotTotal` and `JoinedTotalIsCartValue` tie it to the order lines and the catalogue |
| OrderController.SnapshotTotal | ECommerceBackend/Controllers/OrderController.cs:60-77 | the total computed from the cart equals the sum of the order lines copied from it |
| OrderController.JoinedTotalIsCartValue | ECommerceBackend/Controllers/OrderController.cs:60 | the order total is the cart's value at current catalogue prices |
| OrderController.Checkout | ECommerceBackend/Controllers/OrderController.cs:39-89 | 401 for an unknown caller; 400 for an empty cart; for a non-empty cart, success exactly when every row's product is found; on success, one new `Pending` order with a fresh key, frozen lines and a consistent total, and the caller's rows gone while other users' rows stay, with nothing else in the store changed; any failure saves nothing |
| OrderController.CheckoutSucceeds | ECommerceBackend/Controllers/OrderController.cs:39-89 | on a store that keeps its invariant, a known caller with a non-empty cart always checks out |
| OrderController.CheckoutThenListed | ECommerceBackend/Controllers/OrderController.cs:24-35 | the order a checkout places appears in the caller's order list afterwards |
| OrderController.CheckoutSave | ECommerceBackend/Controllers/OrderController.cs:57-86 | a successful checkout saves exactly one appended order keyed by the order counter, whose total is the sum of its lines, and drops the caller's cart rows |
| OrderController.CheckoutSaveValid | ECommerceBackend/Controllers/OrderController.cs:80-86 | that save keeps the store invariant |
| OrderController.CheckoutPreservesValid | ECommerceBackend/Controllers/OrderController.cs:80-86 | a checkout keeps the store invariant |
| OrderController.CheckoutScenario | ECommerceBackend/Controllers/OrderController.cs:57-88 | 2 x 10.00 plus 1 x 5.50 checks out as one `Pending` order of 25.50 with two lines, and the cart ends empty |
| OrderController.GetMyOrders | ECommerceBackend/Controllers/OrderController.cs:24-35 | 401 for an unknown caller; otherwise exactly the caller's orders, newest first |
| CartController.GetMyCart | ECommerceBackend/Controllers/CarController.cs:25-35 | 401 for an unknown caller; otherwise the caller's rows, each exactly once and in table order, and no other row, each with its product as it is now |
| CartController.AddCartItemDto.Requested | ECommerceBackend/DTOs/AddCartItemDto.cs:8-10 | the quantity an add uses: the one sent, or the initializer's 1 when it is omitted; it has no contract of its own and is stated through `AddToCart`'s `Merged` and `TwoAddsMerge` |
| CartController.AddToCart | ECommerceBackend/Controllers/CarController.cs:39-68 | 401 exactly for an unknown caller; 500 and nothing saved exactly when the pair has no row and the product does not exist; otherwise 200, the pair's quantity grows by the requested amount (default 1, wrapping), a row is inserted only when the pair had none, and nothing else changes |
| CartController.MergeEstablishes | ECommerceBackend/Controllers/CarController.cs:46-64 | both branches, increment and insert, keep every other row and the other tables, and end with exactly one first row for the pair |
| CartController.TwoAddsMerge | ECommerceBackend/Controllers/CarController.cs:49-63 | adding a product twice leaves one row holding the sum, not two rows |
| CartController.AddToCartPreservesValid | ECommerceBackend/Controllers/CarController.cs:39-68 | an add keeps the store invariant, one row per (user, product) and existing products included |
| CartController.AddToCartBreaksQuantityRange | ECommerceBackend/Models/CartItem.cs:23 | two adds of 60 store a row of 120, and an add of 0 stores a row of 0, both outside the declared range |
| CartController.AddToCartInRange | ECommerceBackend/Models/CartItem.cs:23 | with the range enforced, an add is refused with 400 exactly when the result would leave [1,100]; otherwise it is the plain add, and the cart stays in range |
| CartController.InRangeAddKeepsRange | ECommerceBackend/Models/CartItem.cs:23 | an add the range allows keeps every row within [1,100] |
| AdminController.GetAllOrders | ECommerceBackend/Controllers/AdminController.cs:24-30 | behind the Admin gate; every order of every user, newest first |
| AdminController.ShipOrder | ECommerceBackend/Controllers/AdminController.cs:32-44 | behind the Admin gate, 401 without a token and 403 for another role; 404 exactly when no order has the key; with the key present it succeeds, that order becomes `Shipped` and nothing else changes |
| AdminController.ShipIdempotent | ECommerceBackend/Controllers/AdminController.cs:36-41 | shipping twice leaves the store as shipping once |
| AdminController.ShipPreservesValid | ECommerceBackend/Controllers/AdminController.cs:34-44 | shipping keeps the store invariant |
| ProductController.FilterProducts | ECommerceBackend/Controllers/ProductController.cs:35-48 | exactly the products that match the keyword and both inclusive price bounds, each as often as in the catalogue |
| ProductController.Matches | ECommerceBackend/Controllers/ProductController.cs:35-48 | the conjunction of the three `Where` clauses: the keyword, when non-empty, in the name or the description, and each supplied price bound, inclusive; it has no contract of its own and is stated through `FilterProducts` |
| ProductController.Skip | ECommerceBackend/Controllers/ProductController.cs:58 | LINQ `Skip`: drops the first n elements; a non-positive n drops nothing |
| ProductController.Take | ECommerceBackend/Controllers/ProductController.cs:59 | LINQ `Take`: a prefix of length n, clipped; a non-positive n gives nothing |
| ProductController.Offset | ECommerceBackend/Controllers/ProductController.cs:58 | `(page - 1) * pageSize` in unchecked `int` arithmetic: always congruent to the exact product modulo 2^32, and equal to it when the page is at least 1 and the product fits |
| ProductController.GetProducts | ECommerceBackend/Controllers/ProductController.cs:22-70 | the count of all matches, the requested page and size echoed back, and data that is the requested slice of the matches in catalogue order |
| ProductController.DefaultQueryFirstPage | ECommerceBackend/Controllers/ProductController.cs:22-70 | with no query string, the count is the whole catalogue and the page is its first five products |
| ProductController.SearchByNameFinds | ECommerceBackend/Controllers/ProductController.cs:35-38 | searching for a product's own name finds it |
| ProductController.PageOfQuery | ECommerceBackend/Controllers/ProductController.cs:57-60 | when `(page - 1) * pageSize` does not wrap, the page is the slice starting there, `pageSize` long, clipped to the end |
| ProductController.PageIsSlice | ECommerceBackend/Controllers/ProductController.cs:57-60 | `Skip(start).Take(size)` is the slice `[start, start + size)` clipped to the end |
| ProductController.GetProduct | ECommerceBackend/Controllers/ProductController.cs:73-83 | the product with the key, or 404 exactly when the key is absent |
| ProductController.ProductModelValid | ECommerceBackend/Models/Products.cs:10-11 | `[Required]` on `Name`: a name that is not null, empty or whitespace; it has no contract of its own and is stated through the 400 iffs of `PostProduct` and `PutProduct` |
| ProductController.PostProduct | ECommerceBackend/Controllers/ProductController.cs:87-100 | behind the Admin gate, 401 without a token and 403 for another role; 400 exactly when the name is blank; otherwise the client's id is replaced by a fresh key and exactly that product is appended (201), with only the product table and its counter changed |
| ProductController.PutProduct | ECommerceBackend/Controllers/ProductController.cs:102-130 | behind the Admin gate, 401 without a token and 403 for another role; 400 exactly when the name is blank or the route and body ids differ; 404 exactly when the key is absent; with the key present it succeeds and that one product is replaced (204) |
| ProductController.DeleteProduct | ECommerceBackend/Controllers/ProductController.cs:131-145 | behind the Admin gate, 401 without a token and 403 for another role; 404 exactly when the key is absent; with the key present it succeeds, exactly that product is removed and so is every cart row naming it |
| ProductController.CascadeKeepsCartProducts | ECommerceBackend/Models/CartItem.cs:15-20 | after a product and its cart rows are removed, every remaining cart row names a remaining product |
| ProductController.PostThenGet | ECommerceBackend/Controllers/ProductController.cs:87-100 | a product just added is what fetching its new key returns |
| ProductController.PutThenGet | ECommerceBackend/Controllers/ProductController.cs:102-130 | a product just replaced is what fetching its key returns |
| ProductController.DeleteThenGet | ECommerceBackend/Controllers/ProductController.cs:131-145 | a product just deleted can no longer be fetched |
| ProductController.PostPreservesValid | ECommerceBackend/Controllers/ProductController.cs:89-96 | adding a product keeps the store invariant |
| ProductController.PutPreservesValid | ECommerceBackend/Controllers/ProductController.cs:104-116 | replacing a product keeps the store invariant |
| ProductController.DeletePreservesValid | ECommerceBackend/Controllers/ProductController.cs:133-142 | deleting a product keeps the store invariant |
| ProductController.SnapshotSurvivesCatalogueEdits | ECommerceBackend/Controllers/OrderController.cs:71-74 | after a checkout, editing, deleting or adding a product leaves every order, the new one included, as the checkout wrote it |
| AuthController.Register | ECommerceBackend/Controllers/AuthController.cs:30-50 | 400 exactly when the body is malformed (a blank name or password, or a password under 6 UTF-16 code units) or the name is taken, and then nothing is saved; otherwise one `User`-role account with the hashed password is appended, and usernames stay unique |
| AuthController.RegisterDtoValid | ECommerceBackend/DTOs/RegisterDto.cs:7-12 | `[Required]` on both fields and `[MinLength(6)]` on the password in UTF-16 code units; an accepted body has a non-empty name and a password of at least three characters |
| AuthController.MinLengthCountsCodeUnits | ECommerceBackend/DTOs/RegisterDto.cs:10-12 | a password of three characters outside the Basic Multilingual Plane meets `[MinLength(6)]`, five plain letters do not |
| AuthController.RegisterPreservesValid | ECommerceBackend/Controllers/AuthController.cs:39-47 | registering keeps the store invariant |
| AuthController.Login | ECommerceBackend/Controllers/AuthController.cs:54-75 | as written: an unknown name faults (500); a known name gets a token exactly when the password verifies against the first such user's hash, and the token carries the requested name and that user's role |
| AuthController.LoginChecked | ECommerceBackend/Controllers/AuthController.cs:63-66 | the null check taking effect: an unknown name is 400 like a wrong password; otherwise it agrees with `Login` |
| AuthController.UnknownUserLoginFaults | ECommerceBackend/Controllers/AuthController.cs:57-63 | on an empty users table, logging in faults as written but is 400 once corrected |
| AuthController.LoginGrantsOnlyVerified | ECommerceBackend/Controllers/AuthController.cs:63-74 | with unique usernames, a token is granted exactly to a registered name whose stored hash accepts the password, and it names that user |
| AuthController.RegisterThenLogin | ECommerceBackend/Controllers/AuthController.cs:30-75 | a freshly registered name logs in with its password and receives a `User`-role token |
| DbInitializer.Initialize | ECommerceBackend/DbInitializer.cs:9-30 | with no users, exactly one `admin` account with role `Admin` and the hashed password `123456` is added; with any user, nothing changes; the invariant is kept |
| DbInitializer.InitializeIdempotent | ECommerceBackend/DbInitializer.cs:14-17 | seeding twice is seeding once |

## Left out

- JWT issuing and validation (`CreateToken`, the signing key, expiry): the model keeps only the name and role claims the controllers read.
- BCrypt hashing and verification: they are function parameters (`hash`, `verify`). `hash` is deterministic, whereas `BCrypt.HashPassword` draws a fresh salt on every call; no proved property depends on two hashes of one password being equal. `RegisterThenLogin` assumes `verify` accepts a password against its own hash.
- EF Core mechanics (change tracking, `Include` loading, async I/O) are not modelled. Each action's single save is an atomic replacement of the store.
- `AppDbContext` is not part of this model. The cart row's foreign key follows EF Core's convention for a required relationship: the insert is refused and a delete cascades. `OrderController.Checkout` answers a server error, saving nothing, for a cart row whose product is missing; `Valid` rules that state out and `CheckoutSucceeds` shows the answer is then never given, so this branch is the model's own choice.
- Identity-counter overflow: keys and counters are unbounded `int`, so the model never runs out of keys where the `int` identity columns would.
- SQL Server collation: string equality and `Contains` are exact, case-sensitive and sensitive to trailing spaces. The database's default collation is case-insensitive, and its `=` ignores trailing spaces. So in the database "admin " and "Admin" collide with "admin" in `Register`'s `AnyAsync`, in `Login` and in `GetCurrentUserAsync`, but in the model they do not.
- Decimal arithmetic: prices are exact cents, and nothing models decimal overflow or rounding. A query price bound finer than a cent is out of scope.
- `OrderByDescending` leaves the order of equal dates open, so the contracts promise only "newest first" and "same orders".
- `PutProduct`: the rethrow of a concurrency exception while the product still exists is a concurrent-writer race. It cannot happen in this sequential model.
- Concurrency between requests is not modelled. Each request runs alone against one store.
- `Program.cs`, `ExceptionMiddleware` and `BuggyController` are not modelled. An exception thrown by an action appears only as the `ServerError` reply.
- The two `Console.WriteLine` calls in `Login` are not modelled, because logging has no effect on the reply or the store.
- `LoginDto` is not part of this model's sources. Its validation attributes are unknown, so a login body is never rejected before the action.
- The implicit required check on non-nullable properties (`Description`, `Category`) is not modelled. Only the declared `[Required]`, `[MinLength]` annotations are.
- `ProductController.GetProducts`: the page is stated as a slice only when the page number is at least 1, the page size is non-negative and the offset does not wrap. SQL Server rejects a negative `OFFSET` or a `FETCH` count below 1 at run time, which would be a server error. The model instead applies LINQ's `Skip`/`Take` semantics as written, so for a page size of 0 it answers an empty page, and for other values outside that range it answers whatever those semantics give.
- Date and time: `DateTime.Now` is the `now` parameter of `Checkout`.

## Findings

| source | as written | input that shows it | evidently intended | confidence | as-written member | corrected member |
|---|---|---|---|---|---|---|
| ECommerceBackend/Models/CartItem.cs:23 | `Quantity` is declared `[Range(1, 100)]`, but neither `AddCartItemDto` nor the save enforces it, so `AddToCart` stores any sum | two adds of 60 pieces of one product store a row of 120; an add of 0 stores a row of 0 | an add that would leave the row outside [1,100] is refused | not executed | CartController.AddToCart, CartController.AddToCartBreaksQuantityRange | CartController.AddToCartInRange |
| ECommerceBackend/Controllers/AuthController.cs:60 | the found user's hash is read for logging before the `user == null` check on line 63, so an unknown username throws | a login for a name no user has, on any store | an unknown username gets the same 400 as a wrong password | not executed | AuthController.Login, AuthController.UnknownUserLoginFaults | AuthController.LoginChecked |

=== FILE: admin.dfy ===
/** `AdminController`: the whole class sits behind `[Authorize(Roles =
    "Admin")]`, so both actions first pass the role gate. */
module AdminController {
  import opened Base
  import opened Models
  import opened Http
  import opened Queries
  import opened Ordering

  /** `GetAllOrders`: every order of every user, newest first. */
  function GetAllOrders(s: Store, p: Principal): (r: Reply<seq<Order>>)
    ensures AdminGate(p).Some? <==> (r.Unauthorized? || r.Forbidden?)
    ensures AdminGate(p) == Some(NotSignedIn) <==> r.Unauthorized?
    ensures r.Ok? || r.Unauthorized? || r.Forbidden?
    ensures r.Ok? ==> NewestFirst(r.body) && multiset(r.body) == multiset(s.orders)
  {
    match AdminGate(p)
    case Some(d) => DenialReply(d)
    case None => Ok(SortNewestFirst(s.orders))
  }

  /** `ShipOrder`: the order with key `id` becomes `Shipped` whatever its
      status was; no other field and no other order changes. */
  function ShipOrder(s: Store, p: Principal, id: int): (r: Step<()>)
    ensures AdminGate(p).Some? ==> r.next == s && (r.reply.Unauthorized? || r.reply.Forbidden?)
    ensures AdminGate(p) == Some(NotSignedIn) <==> r.reply.Unauthorized?
    ensures AdminGate(p) == Some(WrongRole) <==> r.reply.Forbidden?
    ensures AdminGate(p).None? && (forall j :: 0 <= j < |s.orders| ==> s.orders[j].id != id) ==>
      r == Step(NotFound, s)
    ensures AdminGate(p).None? && (exists j :: 0 <= j < |s.orders| && s.orders[j].id == id) ==>
      r.reply.Ok?
    ensures r.reply.Ok? || r.reply.NotFound? || r.reply.Unauthorized? || r.reply.Forbidden?
    ensures !r.reply.Ok? ==> r.next == s
    ensures r.reply.Ok? ==> ShippedOnly(s, r.next, id)
  {
    match AdminGate(p)
    case Some(d) => Step(DenialReply(d), s)
    case None =>
      match FindOrder(s.orders, id)
      case None => Step(NotFound, s)
      case Some(i) => Step(Ok(()), s.(orders := s.orders[i := s.orders[i].(status := Shipped)]))
  }

  /** The order keyed `id` is now `Shipped`, it differs from before in its
      status alone, every other order is as it was, and so is every other
      table. */
  ghost predicate ShippedOnly(s: Store, t: Store, id: int) {
    && |t.orders| == |s.orders|
    && FindOrder(s.orders, id).Some?
    && var i := FindOrder(s.orders, id).value;
    && t.orders[i].status == Shipped
    && t.orders[i].(status := s.orders[i].status) == s.orders[i]
    && (forall j :: 0 <= j < |s.orders| && j != i ==> t.orders[j] == s.orders[j])
    && t == s.(orders := t.orders)
  }

  /** Shipping an order twice leaves the store exactly as shipping it once. */
  lemma ShipIdempotent(s: Store, p: Principal, id: int)
    ensures var once := ShipOrder(s, p, id).next;
      ShipOrder(once, p, id).next == once
  {
    var once := ShipOrder(s, p, id).next;
    if AdminGate(p).None? {
      match FindOrder(s.orders, id)
      case None =>
      case Some(i) =>
        assert FindOrder(once.orders, id) == Some(i) by {
          FindOrderSameKeys(s.orders, once.orders, id);
        }
        assert once.orders[i := once.orders[i].(status := Shipped)] == once.orders;
    }
  }

  /** The first order with a key depends only on where each key sits. */
  lemma FindOrderSameKeys(a: seq<Order>, b: seq<Order>, id: int)
    requires |a| == |b|
    requires forall j :: 0 <= j < |a| ==> a[j].id == b[j].id
    ensures FindOrder(a, id) == FindOrder(b, id)
  {
    FirstMatchUnique(a, (o: Order) => o.id == id, b, (o: Order) => o.id == id);
  }

  /** Shipping keeps the store invariant: keys and order lines are untouched. */
  lemma ShipPreservesValid(s: Store, p: Principal, id: int)
    requires Valid(s)
    ensures Valid(ShipOrder(s, p, id).next)
  {
  }
}

=== FILE: auth.dfy ===
/** `AuthController`: registration and the login decision. BCrypt is outside
    the model: `hash` stands for `BCrypt.HashPassword` and `verify` for
    `BCrypt.Verify`, both passed in by the caller. The token is reduced to
    the two claims it carries. */
module AuthController {
  import opened Base
  import opened Models
  import opened Http
  import opened Queries

  datatype RegisterDto = RegisterDto(username: string, password: string)

  datatype LoginDto = LoginDto(username: string, password: string)

  /** The claims of the token `CreateToken` signs: the user's name and role. */
  datatype Token = Token(name: string, role: string)

  /** The annotations of `RegisterDto` that `[ApiController]` checks before
      the action: `[Required]` on both fields and `[MinLength(6)]` on the
      password, which counts the string's UTF-16 code units. */
  predicate RegisterDtoValid(dto: RegisterDto): (ok: bool)
    ensures ok ==> |dto.password| >= 3 && dto.username != []
  {
    !IsBlank(dto.username) && !IsBlank(dto.password) && Utf16Length(dto.password) >= 6
  }

  /** `[MinLength(6)]` counts code units, not characters: a password of three
      emoji outside the Basic Multilingual Plane passes it, while five plain
      letters do not. */
  lemma MinLengthCountsCodeUnits()
    ensures RegisterDtoValid(RegisterDto("alice", "\U{1F600}\U{1F600}\U{1F600}"))
    ensures !RegisterDtoValid(RegisterDto("alice", "abcde"))
  {
    var plain := "abcde";
    assert forall i :: 0 <= i < |plain| ==> plain[i] as int < 0x1_0000;
    assert Utf16Length(plain) == 5;
    var emoji := "\U{1F600}\U{1F600}\U{1F600}";
    assert !IsWhiteSpace("alice"[0]) && !IsWhiteSpace(emoji[0]);
    assert Utf16Length("\U{1F600}") == 2;
    assert Utf16Length("\U{1F600}\U{1F600}\U{1F600}") == 6 by {
      assert "\U{1F600}\U{1F600}\U{1F600}"[1..] == "\U{1F600}\U{1F600}";
      assert "\U{1F600}\U{1F600}"[1..] == "\U{1F600}";
    }
  }

  /** Some user is called `name`. */
  predicate NameTaken(users: seq<User>, name: string) {
    exists i :: 0 <= i < |users| && users[i].username == name
  }

  /** No two users share a username. */
  ghost predicate UsernamesUnique(users: seq<User>) {
    forall i, j :: 0 <= i < j < |users| ==> users[i].username != users[j].username
  }

  /** `Register`: a malformed body or a taken name is refused with 400 and
      nothing is saved; otherwise exactly one `User`-role account with the
      hashed password is appended. */
  function Register(s: Store, dto: RegisterDto, hash: string -> string): (r: Step<()>)
    ensures r.reply.Ok? || r.reply.BadRequest?
    ensures r.reply.BadRequest? <==> !RegisterDtoValid(dto) || NameTaken(s.users, dto.username)
    ensures r.reply.BadRequest? ==> r.next == s
    ensures r.reply.Ok? ==>
      && r.next.users == s.users + [User(s.nextUserId, dto.username, hash(dto.password), UserRole)]
      && r.next == s.(users := r.next.users, nextUserId := s.nextUserId + 1)
    ensures UsernamesUnique(s.users) ==> UsernamesUnique(r.next.users)
  {
    if !RegisterDtoValid(dto) || NameTaken(s.users, dto.username) then Step(BadRequest, s)
    else
      var user := User(s.nextUserId, dto.username, hash(dto.password), UserRole);
      Step(Ok(()), s.(users := s.users + [user], nextUserId := s.nextUserId + 1))
  }

  /** Registration keeps the store invariant. */
  lemma RegisterPreservesValid(s: Store, dto: RegisterDto, hash: string -> string)
    requires Valid(s)
    ensures Valid(Register(s, dto, hash).next)
  {
  }

  /** `Login` as written: the user is looked up and its hash is read before
      the null check, so an unknown name throws (500) instead of reaching
      the 400; a known name with a password `verify` rejects gets 400; and
      only a verified password earns a token, with that user's claims. */
  function Login(s: Store, dto: LoginDto, verify: (string, string) -> bool): (r: Reply<Token>)
    ensures r.Ok? || r.BadRequest? || r.ServerError?
    ensures r.ServerError? <==> !NameTaken(s.users, dto.username)
    ensures r.Ok? <==> (
      && FindUserByName(s.users, dto.username).Some?
      && verify(dto.password, s.users[FindUserByName(s.users, dto.username).value].passwordHash))
    ensures r.Ok? ==> r.body == Token(dto.username, s.users[FindUserByName(s.users, dto.username).value].role)
  {
    match FindUserByName(s.users, dto.username)
    case None => ServerError
    case Some(i) =>
      var user := s.users[i];
      if !verify(dto.password, user.passwordHash) then BadRequest
      else Ok(Token(user.username, user.role))
  }

  /** `Login` with the null check before the hash is read, as its `if`
      intends: an unknown name gets the same 400 as a wrong password. */
  function LoginChecked(s: Store, dto: LoginDto, verify: (string, string) -> bool): (r: Reply<Token>)
    ensures r.Ok? || r.BadRequest?
    ensures r.Ok? <==> (
      && FindUserByName(s.users, dto.username).Some?
      && verify(dto.password, s.users[FindUserByName(s.users, dto.username).value].passwordHash))
    ensures r.Ok? ==> r.body == Token(dto.username, s.users[FindUserByName(s.users, dto.username).value].role)
    ensures NameTaken(s.users, dto.username) ==> r == Login(s, dto, verify)
  {
    match FindUserByName(s.users, dto.username)
    case None => BadRequest
    case Some(i) =>
      var user := s.users[i];
      if !verify(dto.password, user.passwordHash) then BadRequest
      else Ok(Token(user.username, user.role))
  }

  /** Logging in with a name nobody has faults in `Login` as written, while
      `LoginChecked` answers 400: the concrete case of an empty user table. */
  lemma UnknownUserLoginFaults(verify: (string, string) -> bool)
    ensures var s := Store([], [], [], [], 1, 1, 1, 1);
      var dto := LoginDto("ghost", "secret1");
      Login(s, dto, verify) == ServerError && LoginChecked(s, dto, verify) == BadRequest
  {
  }

  /** With unique usernames, `LoginChecked` grants a token exactly to a
      registered name whose stored hash `verify` accepts, and the token names
      that user. */
  lemma LoginGrantsOnlyVerified(s: Store, dto: LoginDto, verify: (string, string) -> bool)
    requires UsernamesUnique(s.users)
    ensures LoginChecked(s, dto, verify).Ok? <==>
      exists u :: u in s.users && u.username == dto.username && verify(dto.password, u.passwordHash)
    ensures LoginChecked(s, dto, verify).Ok? ==>
      exists u :: u in s.users && u.username == dto.username &&
        LoginChecked(s, dto, verify).body == Token(u.username, u.role)
  {
    if exists u :: u in s.users && u.username == dto.username && verify(dto.password, u.passwordHash) {
      var u :| u in s.users && u.username == dto.username && verify(dto.password, u.passwordHash);
      var j :| 0 <= j < |s.users| && s.users[j] == u;
      var i := FindUserByName(s.users, dto.username).value;
      assert i == j;
    }
  }

  /** A name just registered logs in with the password it was registered
      with, when `verify` accepts a password against its own hash, and the
      token carries that name and the `User` role. */
  lemma RegisterThenLogin(s: Store, dto: RegisterDto, hash: string -> string, verify: (string, string) -> bool)
    requires Register(s, dto, hash).reply.Ok?
    requires verify(dto.password, hash(dto.password))
    ensures LoginChecked(Register(s, dto, hash).next, LoginDto(dto.username, dto.password), verify)
      == Ok(Token(dto.username, UserRole))
    ensures Login(Register(s, dto, hash).next, LoginDto(dto.username, dto.password), verify)
      == Ok(Token(dto.username, UserRole))
  {
    var users := Register(s, dto, hash).next.users;
    assert users[|s.users|].username == dto.username;
    assert forall j :: 0 <= j < |s.users| ==> users[j] == s.users[j];
    assert FindUserByName(users, dto.username) == Some(|s.users|);
  }
}

=== FILE: base.dfy ===
/** Small building blocks shared by every controller model: an optional value,
    the 32-bit integer arithmetic of C#, and the two string tests the
    controllers and the request validators rely on. */
module Base {

  /** A value that may be absent: a nullable reference or an omitted field. */
  datatype Option<+T> = None | Some(value: T) {

    /** The encapsulated value, or `default` when there is none. */
    function GetOr(default: T): T {
      match this
      case Some(v) => v
      case None => default
    }
  }

  const MinInt32: int := -0x8000_0000
  const MaxInt32: int := 0x7FFF_FFFF

  /** True iff `x` fits a C# `int`. */
  predicate IsInt32(x: int) {
    MinInt32 <= x <= MaxInt32
  }

  /** A C# `int`. */
  type Int32 = x: int | IsInt32(x)

  /** The value C#'s unchecked `int` arithmetic produces for the exact result
      `x`: two's-complement wrap-around into the 32-bit range. */
  function Wrap32(x: int): (r: Int32)
    ensures IsInt32(x) ==> r == x
    ensures (x - r) % 0x1_0000_0000 == 0
  {
    (x - MinInt32) % 0x1_0000_0000 + MinInt32
  }

  /** The characters `char.IsWhiteSpace` accepts: the Unicode separators
      (space, line and paragraph) and the controls U+0009 to U+000D and
      U+0085. */
  predicate IsWhiteSpace(c: char) {
    var n := c as int;
    || 0x09 <= n <= 0x0D || n == 0x20 || n == 0x85 || n == 0xA0 || n == 0x1680
    || 0x2000 <= n <= 0x200A || n == 0x2028 || n == 0x2029 || n == 0x202F
    || n == 0x205F || n == 0x3000
  }

  /** `string.IsNullOrWhiteSpace` for a non-null string: what a `[Required]`
      string property rejects. */
  predicate IsBlank(s: string) {
    forall i :: 0 <= i < |s| ==> IsWhiteSpace(s[i])
  }

  /** `part` occurs in `text` starting at position `i`. */
  predicate OccursAt(text: string, part: string, i: int) {
    0 <= i && i + |part| <= |text| && text[i..i + |part|] == part
  }

  /** `text.Contains(part)`: `part` occurs in `text` as a contiguous run. */
  predicate Contains(text: string, part: string) {
    exists i | 0 <= i <= |text| - |part| :: OccursAt(text, part, i)
  }

  /** The length .NET gives a string: its UTF-16 code units, one for a
      character of the Basic Multilingual Plane and two for any other. */
  function Utf16Length(text: string): (n: nat)
    ensures |text| <= n <= 2 * |text|
    ensures n == |text| <==> forall i :: 0 <= i < |text| ==> text[i] as int < 0x1_0000
  {
    if text == [] then 0
    else (if text[0] as int < 0x1_0000 then 1 else 2) + Utf16Length(text[1..])
  }

  /** Every string contains itself and every string contains the empty one. */
  lemma ContainsSelfAndEmpty(text: string)
    ensures Contains(text, text)
    ensures Contains(text, [])
  {
    assert OccursAt(text, text, 0);
    assert OccursAt(text, [], 0);
  }
}

=== FILE: cart.dfy ===
/** `CartController`: reading the caller's cart and merging an add into it. */
module CartController {
  import opened Base
  import opened Models
  import opened Http
  import opened Queries
  import opened Identity

  /** The add-to-cart request body. An omitted quantity means one piece. */
  datatype AddCartItemDto = AddCartItemDto(productId: int, quantity: Option<Int32>) {
    function Requested(): Int32 {
      quantity.GetOr(1)
    }
  }

  /** A cart row with the product it names, or none if that product is gone. */
  datatype CartLine = CartLine(row: CartItem, product: Option<Product>)

  /** How many pieces of `productId` the first matching row of `userId`
      holds; zero when there is no such row. */
  function QuantityOf(cart: seq<CartItem>, userId: int, productId: int): int {
    match FindCartRow(cart, userId, productId)
    case None => 0
    case Some(i) => cart[i].quantity
  }

  /** `GetMyCart`: every row of the caller and no other, each with its
      product as it is now. */
  function GetMyCart(s: Store, p: Principal): (r: Reply<seq<CartLine>>)
    ensures CurrentUser(s, p).None? <==> r == Unauthorized
    ensures r.Ok? || r.Unauthorized?
    ensures r.Ok? ==> forall i :: 0 <= i < |r.body| ==>
      r.body[i].row.userId == CurrentUser(s, p).value.id &&
      r.body[i].product == LookupProduct(s.products, r.body[i].row.productId)
    ensures r.Ok? ==> forall c :: c in s.cart && c.userId == CurrentUser(s, p).value.id <==>
      exists i :: 0 <= i < |r.body| && r.body[i].row == c
    ensures r.Ok? ==> (|r.body| == |RowsOf(s.cart, CurrentUser(s, p).value.id)| &&
      forall i :: 0 <= i < |r.body| ==> r.body[i].row == RowsOf(s.cart, CurrentUser(s, p).value.id)[i])
  {
    match CurrentUser(s, p)
    case None => Unauthorized
    case Some(user) =>
      var rows := RowsOf(s.cart, user.id);
      var lines := seq(|rows|, i requires 0 <= i < |rows| => CartLine(rows[i], LookupProduct(s.products, rows[i].productId)));
      MyRowsListed(s.cart, user.id, lines);
      Ok(lines)
  }

  /** `AddToCart`: the caller's row for the product grows by the requested
      quantity (in C#'s wrapping `int` addition), or a new row with that
      quantity is inserted. Nothing checks the quantity. Inserting a row for
      a product that does not exist violates the foreign key of `CartItem`:
      the save throws and nothing is stored. */
  function AddToCart(s: Store, p: Principal, dto: AddCartItemDto): (r: Step<()>)
    ensures CurrentUser(s, p).None? ==> r == Step(Unauthorized, s)
    ensures r.reply.Unauthorized? <==> CurrentUser(s, p).None?
    ensures r.reply.ServerError? <==>
      && CurrentUser(s, p).Some?
      && FindCartRow(s.cart, CurrentUser(s, p).value.id, dto.productId).None?
      && !HasProduct(s.products, dto.productId)
    ensures (CurrentUser(s, p).Some? &&
             (FindCartRow(s.cart, CurrentUser(s, p).value.id, dto.productId).Some? || HasProduct(s.products, dto.productId)))
            ==> r.reply.Ok?
    ensures r.reply.Ok? || r.reply.Unauthorized? || r.reply.ServerError?
    ensures !r.reply.Ok? ==> r.next == s
    ensures r.reply.Ok? ==> Merged(s, r.next, CurrentUser(s, p).value.id, dto.productId, dto.Requested())
  {
    match CurrentUser(s, p)
    case None => Step(Unauthorized, s)
    case Some(user) =>
      var q := dto.Requested();
      match FindCartRow(s.cart, user.id, dto.productId)
      case Some(i) =>
        var t := s.(cart := s.cart[i := s.cart[i].(quantity := Wrap32(s.cart[i].quantity + q))]);
        MergeEstablishes(s, t, user.id, dto.productId, q);
        Step(Ok(()), t)
      case None =>
        if FindProduct(s.products, dto.productId).None? then Step(ServerError, s)
        else
          var t := s.(cart := s.cart + [CartItem(s.nextCartId, user.id, dto.productId, q)], nextCartId := s.nextCartId + 1);
          MergeEstablishes(s, t, user.id, dto.productId, q);
          Step(Ok(()), t)
  }

  /** A list whose rows are `RowsOf(cart, userId)` lists exactly the rows of
      `userId`. */
  lemma MyRowsListed(cart: seq<CartItem>, userId: int, lines: seq<CartLine>)
    requires |lines| == |RowsOf(cart, userId)|
    requires forall i :: 0 <= i < |lines| ==> lines[i].row == RowsOf(cart, userId)[i]
    ensures forall c :: c in cart && c.userId == userId <==> exists i :: 0 <= i < |lines| && lines[i].row == c
  {
    var rows := RowsOf(cart, userId);
    forall c | c in cart && c.userId == userId
      ensures exists i :: 0 <= i < |lines| && lines[i].row == c
    {
      assert multiset(rows)[c] == multiset(cart)[c] > 0;
      assert c in rows;
      var i :| 0 <= i < |rows| && rows[i] == c;
      assert lines[i].row == c;
    }
    forall c | exists i :: 0 <= i < |lines| && lines[i].row == c
      ensures c in cart && c.userId == userId
    {
      var i :| 0 <= i < |lines| && lines[i].row == c;
      assert rows[i] == c;
      assert multiset(rows)[c] > 0;
    }
  }

  /** What one add of `q` pieces of `productId` for `userId` does to the cart:
      the pair's quantity grows by `q`; a row is inserted only when the pair
      had none; every row but the pair's first, which covers every row of
      another user or another product, keeps its place and content; rows only
      ever change their quantity; a row is inserted only for an existing
      product; and the other tables are untouched. */
  ghost predicate Merged(s: Store, t: Store, userId: int, productId: int, q: Int32) {
    var first := FindCartRow(s.cart, userId, productId);
    && QuantityOf(t.cart, userId, productId) == Wrap32(QuantityOf(s.cart, userId, productId) + q)
    && FindCartRow(t.cart, userId, productId).Some?
    && |t.cart| == |s.cart| + (if first.Some? then 0 else 1)
    && (forall j :: 0 <= j < |s.cart| && first != Some(j) ==> t.cart[j] == s.cart[j])
    && (forall j :: 0 <= j < |s.cart| ==> t.cart[j].(quantity := s.cart[j].quantity) == s.cart[j])
    && (forall j :: |s.cart| <= j < |t.cart| ==>
          t.cart[j].id == s.nextCartId && t.cart[j].userId == userId && t.cart[j].productId == productId)
    && t.nextCartId == s.nextCartId + (if first.Some? then 0 else 1)
    && (|t.cart| > |s.cart| ==> HasProduct(s.products, productId))
    && (CartUnique(s.cart) ==> CartUnique(t.cart))
    && t.users == s.users && t.products == s.products && t.orders == s.orders
    && t.nextUserId == s.nextUserId && t.nextProductId == s.nextProductId && t.nextOrderId == s.nextOrderId
  }

  /** Both branches of `AddToCart` meet `Merged`. */
  lemma MergeEstablishes(s: Store, t: Store, userId: int, productId: int, q: Int32)
    requires t == match FindCartRow(s.cart, userId, productId)
      case Some(i) => s.(cart := s.cart[i := s.cart[i].(quantity := Wrap32(s.cart[i].quantity + q))])
      case None => s.(cart := s.cart + [CartItem(s.nextCartId, userId, productId, q)], nextCartId := s.nextCartId + 1)
    requires FindCartRow(s.cart, userId, productId).None? ==> HasProduct(s.products, productId)
    ensures Merged(s, t, userId, productId, q)
  {
    match FindCartRow(s.cart, userId, productId)
    case Some(i) =>
      assert FindCartRow(t.cart, userId, productId) == Some(i) by {
        FindCartRowSameKeys(s.cart, t.cart, userId, productId);
      }
    case None =>
      assert FindCartRow(t.cart, userId, productId) == Some(|s.cart|) by {
        FindCartRowAppend(s.cart, CartItem(s.nextCartId, userId, productId, q));
      }
  }

  /** The first row of a pair depends only on where rows of each key sit. */
  lemma FindCartRowSameKeys(a: seq<CartItem>, b: seq<CartItem>, userId: int, productId: int)
    requires |a| == |b|
    requires forall j :: 0 <= j < |a| ==> a[j].userId == b[j].userId && a[j].productId == b[j].productId
    ensures FindCartRow(a, userId, productId) == FindCartRow(b, userId, productId)
  {
    FirstMatchUnique(a, (c: CartItem) => c.userId == userId && c.productId == productId,
                     b, (c: CartItem) => c.userId == userId && c.productId == productId);
  }

  /** Appending a row for a pair that had none makes it the pair's first. */
  lemma FindCartRowAppend(cart: seq<CartItem>, row: CartItem)
    requires FindCartRow(cart, row.userId, row.productId).None?
    ensures FindCartRow(cart + [row], row.userId, row.productId) == Some(|cart|)
  {
    var c := cart + [row];
    assert c[|cart|] == row;
    assert forall j :: 0 <= j < |cart| ==> c[j] == cart[j];
  }

  /** Two adds of `a` and then `b` pieces of a product the caller had no row
      for leave one row for the pair, holding `a + b` pieces, behind the
      untouched earlier rows. */
  lemma TwoAddsMerge(s: Store, p: Principal, productId: int, a: Int32, b: Int32)
    requires CurrentUser(s, p).Some?
    requires FindCartRow(s.cart, CurrentUser(s, p).value.id, productId).None?
    requires HasProduct(s.products, productId)
    requires IsInt32(a + b)
    ensures var t := AddToCart(AddToCart(s, p, AddCartItemDto(productId, Some(a))).next, p,
                               AddCartItemDto(productId, Some(b))).next;
      t.cart == s.cart + [CartItem(s.nextCartId, CurrentUser(s, p).value.id, productId, a + b)]
  {
    var uid := CurrentUser(s, p).value.id;
    var s1 := AddToCart(s, p, AddCartItemDto(productId, Some(a))).next;
    assert CurrentUser(s1, p) == CurrentUser(s, p);
    var t := AddToCart(s1, p, AddCartItemDto(productId, Some(b))).next;
    FindCartRowAppend(s.cart, s1.cart[|s.cart|]);
    assert s1.cart == s.cart + [s1.cart[|s.cart|]];
    assert FindCartRow(s1.cart, uid, productId) == Some(|s.cart|);
    assert s1.cart[|s.cart|] == CartItem(s.nextCartId, uid, productId, a);
    assert t.cart[|s.cart|] == CartItem(s.nextCartId, uid, productId, a + b);
    assert t.cart == s.cart + [CartItem(s.nextCartId, uid, productId, a + b)];
  }

  /** `AddToCart` keeps the store invariant. */
  lemma AddToCartPreservesValid(s: Store, p: Principal, dto: AddCartItemDto)
    requires Valid(s)
    ensures Valid(AddToCart(s, p, dto).next)
  {
    var r := AddToCart(s, p, dto);
    var t := r.next;
    if r.reply.Ok? {
      assert forall j :: 0 <= j < |s.cart| ==> t.cart[j].id == s.cart[j].id;
      forall c | c in t.cart
        ensures HasProduct(t.products, c.productId)
      {
        var j :| 0 <= j < |t.cart| && t.cart[j] == c;
        if j < |s.cart| {
          assert t.cart[j].(quantity := s.cart[j].quantity) == s.cart[j];
          assert s.cart[j] in s.cart;
        }
      }
    }
  }

  /** A product with id 7, for the example below. */
  const Pen := Product(7, "pen", "", 150, None, "office")

  /** The cart quantity range of `CartItem` is not kept: two adds of 60
      pieces store a row of 120, and an add of 0 pieces stores an empty row. */
  lemma AddToCartBreaksQuantityRange()
    ensures
      var s := Store([User(1, "alice", "h", UserRole)], [Pen], [], [], 2, 8, 1, 1);
      var p := Authenticated(Some("alice"), Some(UserRole));
      var s1 := AddToCart(s, p, AddCartItemDto(7, Some(60))).next;
      var s2 := AddToCart(s1, p, AddCartItemDto(7, Some(60))).next;
      var s3 := AddToCart(s, p, AddCartItemDto(7, Some(0))).next;
      && QuantitiesInRange(s.cart) && QuantitiesInRange(s1.cart)
      && s2.cart == [CartItem(1, 1, 7, 120)] && !QuantitiesInRange(s2.cart)
      && s3.cart == [CartItem(1, 1, 7, 0)] && !QuantitiesInRange(s3.cart)
  {
    var s := Store([User(1, "alice", "h", UserRole)], [Pen], [], [], 2, 8, 1, 1);
    var p := Authenticated(Some("alice"), Some(UserRole));
    assert CurrentUser(s, p) == Some(s.users[0]);
    assert s.products[0].id == 7;
    TwoAddsMerge(s, p, 7, 60, 60);
    var s3 := AddToCart(s, p, AddCartItemDto(7, Some(0))).next;
    assert s3.cart[0] == CartItem(1, 1, 7, 0);
  }

  /** Whether an add of `q` pieces onto a row holding `held` is one the
      declared range allows: at least one piece, and at most 100 afterwards. */
  predicate AddAllowed(held: int, q: int) {
    1 <= q && 1 <= held + q <= 100
  }

  /** `AddToCart` with the `[1,100]` range of `CartItem` enforced: an add
      that would leave the pair outside the range is refused with 400 and
      saves nothing; any other add is exactly `AddToCart`. */
  function AddToCartInRange(s: Store, p: Principal, dto: AddCartItemDto): (r: Step<()>)
    ensures CurrentUser(s, p).None? ==> r == Step(Unauthorized, s)
    ensures r.reply.BadRequest? <==>
      CurrentUser(s, p).Some? &&
      !AddAllowed(QuantityOf(s.cart, CurrentUser(s, p).value.id, dto.productId), dto.Requested())
    ensures r.reply.Ok? || r.reply.Unauthorized? || r.reply.BadRequest? || r.reply.ServerError?
    ensures !r.reply.Ok? ==> r.next == s
    ensures !r.reply.BadRequest? ==> r == AddToCart(s, p, dto)
    ensures QuantitiesInRange(s.cart) ==> QuantitiesInRange(r.next.cart)
  {
    match CurrentUser(s, p)
    case None => Step(Unauthorized, s)
    case Some(user) =>
      if !AddAllowed(QuantityOf(s.cart, user.id, dto.productId), dto.Requested()) then Step(BadRequest, s)
      else
        var r := AddToCart(s, p, dto);
        if r.reply.Ok? then
          InRangeAddKeepsRange(s, r.next, user.id, dto.productId, dto.Requested());
          r
        else r
  }

  /** When a cart only grows at its end and keeps the key of every earlier
      row, a pair's first row sits where it sat before, or at the old end
      when the pair had no row and the cart grew by one of its rows. */
  lemma FirstRowAfterGrowth(a: seq<CartItem>, b: seq<CartItem>, userId: int, productId: int)
    requires |a| <= |b|
    requires forall j :: 0 <= j < |a| ==> b[j].userId == a[j].userId && b[j].productId == a[j].productId
    requires FindCartRow(b, userId, productId).Some?
    requires forall j :: |a| <= j < |b| ==> b[j].userId == userId && b[j].productId == productId
    ensures FindCartRow(b, userId, productId) ==
      Some(match FindCartRow(a, userId, productId) case Some(i) => i case None => |a|)
  {
    var k := FindCartRow(b, userId, productId).value;
    var m := match FindCartRow(a, userId, productId) case Some(i) => i case None => |a|;
    assert forall j :: 0 <= j < m ==> !(b[j].userId == userId && b[j].productId == productId);
    assert m <= k < |b|;
    assert b[m].userId == userId && b[m].productId == productId;
  }

  /** After an add, the pair's first row sits where it sat before, or at
      the end when the pair had no row. */
  lemma MergedFirstRow(s: Store, t: Store, userId: int, productId: int, q: Int32)
    requires Merged(s, t, userId, productId, q)
    ensures FindCartRow(t.cart, userId, productId) ==
      Some(match FindCartRow(s.cart, userId, productId) case Some(i) => i case None => |s.cart|)
  {
    forall j | 0 <= j < |s.cart|
      ensures t.cart[j].userId == s.cart[j].userId && t.cart[j].productId == s.cart[j].productId
    {
      assert t.cart[j].(quantity := s.cart[j].quantity) == s.cart[j];
    }
    FirstRowAfterGrowth(s.cart, t.cart, userId, productId);
  }

  /** An allowed add keeps every row inside the range. */
  lemma InRangeAddKeepsRange(s: Store, t: Store, userId: int, productId: int, q: Int32)
    requires Merged(s, t, userId, productId, q)
    requires AddAllowed(QuantityOf(s.cart, userId, productId), q)
    ensures QuantitiesInRange(s.cart) ==> QuantitiesInRange(t.cart)
  {
    var first := FindCartRow(s.cart, userId, productId);
    var held := QuantityOf(s.cart, userId, productId);
    MergedFirstRow(s, t, userId, productId, q);
    var k := FindCartRow(t.cart, userId, productId).value;
    assert t.cart[k].quantity == held + q;
    if QuantitiesInRange(s.cart) {
      forall j | 0 <= j < |t.cart|
        ensures 1 <= t.cart[j].quantity <= 100
      {
        if j != k {
          assert j < |s.cart| && first != Some(j);
          assert t.cart[j] == s.cart[j];
        }
      }
    }
  }
}

=== FILE: http.dfy ===
/** What a request brings in and what an action hands back. The token is
    reduced to the two claims the controllers read, and every action result
    is one of the status codes the controllers return. */
module Http {
  import opened Base
  import opened Models

  /** The caller as the authentication middleware sees it: either no valid
      token, or a token whose name and role claims may each be missing. */
  datatype Principal = Anonymous | Authenticated(name: Option<string>, role: Option<string>)

  /** The action results the controllers produce. `ServerError` is what the
      exception middleware answers when an action throws. */
  datatype Reply<+T> =
    | Ok(body: T)
    | Created(body: T)
    | NoContent
    | BadRequest
    | Unauthorized
    | Forbidden
    | NotFound
    | ServerError

  /** An action that may write: its reply and the store after its one save
      (the same store when it saved nothing). */
  datatype Step<+T> = Step(reply: Reply<T>, next: Store)

  /** Why an `[Authorize]` gate turned a request away. */
  datatype Denial = NotSignedIn | WrongRole

  /** The reply a turned-away request receives: 401 without a token, 403
      with a token that lacks the role. */
  function DenialReply<T>(d: Denial): (r: Reply<T>)
    ensures r.Unauthorized? || r.Forbidden?
  {
    match d
    case NotSignedIn => Unauthorized
    case WrongRole => Forbidden
  }

  /** `[Authorize(Roles = "Admin")]`: decided from the token alone, before the
      action reads anything. `None` lets the request through. */
  function AdminGate(p: Principal): (r: Option<Denial>)
    ensures r.None? <==> p.Authenticated? && p.role == Some(AdminRole)
    ensures r == Some(NotSignedIn) <==> p.Anonymous?
  {
    match p
    case Anonymous => Some(NotSignedIn)
    case Authenticated(_, role) => if role == Some(AdminRole) then None else Some(WrongRole)
  }
}

=== FILE: identity.dfy ===
/** `GetCurrentUserAsync`, which the cart and order controllers each carry a
    copy of: the token's name claim is looked up among the users. */
module Identity {
  import opened Base
  import opened Models
  import opened Http
  import opened Queries

  /** The user a request acts for. A request without a token, with a missing
      or empty name claim, or with a name nobody has, acts for nobody. */
  function CurrentUser(s: Store, p: Principal): (r: Option<User>)
    ensures r.Some? <==>
      p.Authenticated? && p.name.Some? && p.name.value != [] &&
      exists i :: 0 <= i < |s.users| && s.users[i].username == p.name.value
    ensures r.Some? ==> r.value in s.users && r.value.username == p.name.value
    ensures r.Some? ==> r.value == s.users[FindUserByName(s.users, p.name.value).value]
  {
    match p
    case Anonymous => None
    case Authenticated(name, _) =>
      if name.None? || name.value == [] then None
      else match FindUserByName(s.users, name.value)
        case None => None
        case Some(i) => Some(s.users[i])
  }

  /** The caller is resolved from the users table alone. */
  lemma CurrentUserReadsOnlyUsers(s: Store, t: Store, p: Principal)
    requires s.users == t.users
    ensures CurrentUser(s, p) == CurrentUser(t, p)
  {
  }
}

=== FILE: models.dfy ===
/** The persisted entities of the shop and the one store that holds them.
    Every entity is an immutable value; an action that changes the database
    returns a new `Store`, which is how one `SaveChangesAsync` replaces the
    whole state at once. */
module Models {
  import opened Base

  /** Money columns are `decimal(18,2)`: exact, so the model counts whole cents. */
  type Cents = int

  /** The order life cycle; a new order starts `Pending`. */
  datatype OrderStatus = Pending | Shipped | Completed | Cancelled

  /** A registered account. The role is the string the token carries. */
  datatype User = User(id: int, username: string, passwordHash: string, role: string)

  datatype Product = Product(
    id: int,
    name: string,
    description: string,
    price: Cents,
    imageUrl: Option<string>,
    category: string)

  /** One row of somebody's cart: a non-owning reference to a product. */
  datatype CartItem = CartItem(id: int, userId: int, productId: int, quantity: Int32)

  /** A purchased line. The name and the price are copies taken at checkout;
      the product id is kept for tracing only. The row's own id and its
      `OrderId` are implied by the order that owns it. */
  datatype OrderItem = OrderItem(productId: int, productName: string, price: Cents, quantity: Int32)

  /** An order exclusively owns its items. */
  datatype Order = Order(
    id: int,
    userId: int,
    orderDate: int,
    totalAmount: Cents,
    status: OrderStatus,
    items: seq<OrderItem>)

  /** The database. Each table is a sequence in the order the database
      returns it when nothing else is asked for; `next…Id` is the value the
      identity column hands out to the next insert. */
  datatype Store = Store(
    users: seq<User>,
    products: seq<Product>,
    cart: seq<CartItem>,
    orders: seq<Order>,
    nextUserId: int,
    nextProductId: int,
    nextCartId: int,
    nextOrderId: int)

  const AdminRole: string := "Admin"
  const UserRole: string := "User"

  /** What a line of `quantity` pieces at `price` costs. */
  function LineTotal(price: Cents, quantity: int): Cents {
    price * quantity
  }

  /** The sum of an order's line totals. */
  function ItemsTotal(items: seq<OrderItem>): Cents {
    if |items| == 0 then 0
    else LineTotal(items[0].price, items[0].quantity) + ItemsTotal(items[1..])
  }

  /** At most one cart row per (user, product) pair. */
  ghost predicate CartUnique(cart: seq<CartItem>) {
    forall i, j :: 0 <= i < j < |cart| ==>
      cart[i].userId != cart[j].userId || cart[i].productId != cart[j].productId
  }

  /** Some product has the key `id`. */
  predicate HasProduct(products: seq<Product>, id: int) {
    exists j :: 0 <= j < |products| && products[j].id == id
  }

  /** The foreign key `[ForeignKey("ProductId")]` declares on a cart row:
      every row names a product that exists. */
  ghost predicate CartProductsExist(cart: seq<CartItem>, products: seq<Product>) {
    forall c :: c in cart ==> HasProduct(products, c.productId)
  }

  /** Every cart row holds between 1 and 100 pieces, the range `CartItem`
      declares for its quantity. */
  ghost predicate QuantitiesInRange(cart: seq<CartItem>) {
    forall i :: 0 <= i < |cart| ==> 1 <= cart[i].quantity <= 100
  }

  /** Every order's total is the sum of its own lines. */
  ghost predicate TotalsConsistent(orders: seq<Order>) {
    forall i :: 0 <= i < |orders| ==> orders[i].totalAmount == ItemsTotal(orders[i].items)
  }

  ghost predicate UserKeys(users: seq<User>, next: int) {
    && (forall i :: 0 <= i < |users| ==> users[i].id < next)
    && (forall i, j :: 0 <= i < j < |users| ==> users[i].id != users[j].id)
  }

  ghost predicate ProductKeys(products: seq<Product>, next: int) {
    && (forall i :: 0 <= i < |products| ==> products[i].id < next)
    && (forall i, j :: 0 <= i < j < |products| ==> products[i].id != products[j].id)
  }

  ghost predicate CartKeys(cart: seq<CartItem>, next: int) {
    && (forall i :: 0 <= i < |cart| ==> cart[i].id < next)
    && (forall i, j :: 0 <= i < j < |cart| ==> cart[i].id != cart[j].id)
  }

  ghost predicate OrderKeys(orders: seq<Order>, next: int) {
    && (forall i :: 0 <= i < |orders| ==> orders[i].id < next)
    && (forall i, j :: 0 <= i < j < |orders| ==> orders[i].id != orders[j].id)
  }

  /** The invariant every action keeps: primary keys are distinct and below
      the identity counters, the cart has one row per (user, product) and
      names only existing products, and every order's total matches its
      lines. */
  ghost predicate Valid(s: Store) {
    && UserKeys(s.users, s.nextUserId)
    && ProductKeys(s.products, s.nextProductId)
    && CartKeys(s.cart, s.nextCartId)
    && OrderKeys(s.orders, s.nextOrderId)
    && CartUnique(s.cart)
    && CartProductsExist(s.cart, s.products)
    && TotalsConsistent(s.orders)
  }
}

=== FILE: ordering.dfy ===
/** `OrderByDescending(o => o.OrderDate)`, the ordering both order listings
    ask the database for. The database leaves the order of equal dates open;
    the model settles them by insertion order, and its contracts promise only
    what the query does. */
module Ordering {
  import opened Models

  /** Newest first: no order precedes a later-dated one. */
  ghost predicate NewestFirst(os: seq<Order>) {
    forall i, j :: 0 <= i < j < |os| ==> os[i].orderDate >= os[j].orderDate
  }

  /** Puts `o` into a newest-first list in front of the first older order. */
  function InsertByDate(o: Order, os: seq<Order>): (r: seq<Order>)
    requires NewestFirst(os)
    ensures NewestFirst(r)
    ensures multiset(r) == multiset(os) + multiset{o}
  {
    if |os| == 0 then [o]
    else if o.orderDate >= os[0].orderDate then [o] + os
    else
      var rest := InsertByDate(o, os[1..]);
      assert os == [os[0]] + os[1..];
      RestNotNewer(o, os, rest);
      ConsNewestFirst(os[0], rest);
      [os[0]] + rest
  }

  /** Every order of an insertion into the tail is no newer than the head,
      when the inserted one is older than the head. */
  lemma RestNotNewer(o: Order, os: seq<Order>, rest: seq<Order>)
    requires |os| > 0 && NewestFirst(os) && o.orderDate < os[0].orderDate
    requires multiset(rest) == multiset(os[1..]) + multiset{o}
    ensures forall k :: 0 <= k < |rest| ==> rest[k].orderDate <= os[0].orderDate
  {
    forall k | 0 <= k < |rest|
      ensures rest[k].orderDate <= os[0].orderDate
    {
      assert rest[k] in multiset(rest);
      if rest[k] != o {
        assert rest[k] in os[1..];
      }
    }
  }

  /** An order no older than every order of a newest-first list may go in
      front of it. */
  lemma ConsNewestFirst(h: Order, rest: seq<Order>)
    requires NewestFirst(rest)
    requires forall k :: 0 <= k < |rest| ==> rest[k].orderDate <= h.orderDate
    ensures NewestFirst([h] + rest)
  {
    var r := [h] + rest;
    forall i, j | 0 <= i < j < |r|
      ensures r[i].orderDate >= r[j].orderDate
    {
      assert r[j] == rest[j - 1];
      if i > 0 {
        assert r[i] == rest[i - 1];
      }
    }
  }

  /** The orders newest first. */
  function SortNewestFirst(os: seq<Order>): (r: seq<Order>)
    ensures NewestFirst(r)
    ensures multiset(r) == multiset(os)
  {
    if |os| == 0 then []
    else
      assert os == [os[0]] + os[1..];
      InsertByDate(os[0], SortNewestFirst(os[1..]))
  }
}

=== FILE: orders.dfy ===
/** `OrderController`: turning the caller's cart into an order whose lines
    are frozen copies of the catalogue, and listing the caller's orders. */
module OrderController {
  import opened Base
  import opened Models
  import opened Http
  import opened Queries
  import opened Identity
  import opened Ordering

  /** The product of every row, position by position; `None` as soon as one
      row names a product that is not there. */
  function JoinProducts(rows: seq<CartItem>, products: seq<Product>): (r: Option<seq<Product>>)
    ensures r.Some? ==> |r.value| == |rows|
    ensures r.Some? ==> forall i :: 0 <= i < |rows| ==> LookupProduct(products, rows[i].productId) == Some(r.value[i])
    ensures r.None? <==> exists i :: 0 <= i < |rows| && LookupProduct(products, rows[i].productId).None?
  {
    if |rows| == 0 then Some([])
    else match (LookupProduct(products, rows[0].productId), JoinProducts(rows[1..], products))
      case (Some(p), Some(ps)) => Some([p] + ps)
      case (None, _) => None
      case (_, None) =>
        assert forall i :: 1 <= i < |rows| ==> rows[i] == rows[1..][i - 1];
        None
  }

  /** `item` is the frozen copy of `row` with the product `row` names now. */
  ghost predicate SnapshotOf(item: OrderItem, row: CartItem, products: seq<Product>) {
    && LookupProduct(products, row.productId).Some?
    && var p := LookupProduct(products, row.productId).value;
    && item.productId == row.productId
    && item.quantity == row.quantity
    && item.productName == p.name
    && item.price == p.price
  }

  /** One order line per cart row: the row's product id and quantity with the
      product's current name and price copied in. */
  function SnapshotItems(rows: seq<CartItem>, ps: seq<Product>): (r: seq<OrderItem>)
    requires |rows| == |ps|
    ensures |r| == |rows|
    ensures forall i :: 0 <= i < |rows| ==>
      && r[i].productId == rows[i].productId && r[i].quantity == rows[i].quantity
      && r[i].productName == ps[i].name && r[i].price == ps[i].price
  {
    if |rows| == 0 then []
    else [OrderItem(rows[0].productId, ps[0].name, ps[0].price, rows[0].quantity)]
         + SnapshotItems(rows[1..], ps[1..])
  }

  /** `cartItems.Sum(c => c.Product.Price * c.Quantity)` over rows joined
      position by position with their products. */
  function CartLinesTotal(rows: seq<CartItem>, ps: seq<Product>): (r: Cents)
    requires |rows| == |ps|
    ensures (forall i :: 0 <= i < |rows| ==> ps[i].price >= 0 && rows[i].quantity >= 0) ==> r >= 0
  {
    if |rows| == 0 then 0
    else LineTotal(ps[0].price, rows[0].quantity) + CartLinesTotal(rows[1..], ps[1..])
  }

  /** What the rows cost at the catalogue's current prices, each row priced
      by looking its product up (a row naming no product costs nothing). */
  ghost function CartValue(rows: seq<CartItem>, products: seq<Product>): Cents {
    if |rows| == 0 then 0
    else
      var price := match LookupProduct(products, rows[0].productId)
        case Some(p) => p.price
        case None => 0;
      LineTotal(price, rows[0].quantity) + CartValue(rows[1..], products)
  }

  /** The total computed from the cart equals the total of the order lines
      copied from it. */
  lemma {:induction false} SnapshotTotal(rows: seq<CartItem>, ps: seq<Product>)
    requires |rows| == |ps|
    ensures ItemsTotal(SnapshotItems(rows, ps)) == CartLinesTotal(rows, ps)
  {
    if |rows| > 0 {
      SnapshotTotal(rows[1..], ps[1..]);
      var items := SnapshotItems(rows, ps);
      assert items[1..] == SnapshotItems(rows[1..], ps[1..]);
    }
  }

  /** The joined total is the catalogue value of the cart. */
  lemma {:induction false} JoinedTotalIsCartValue(rows: seq<CartItem>, products: seq<Product>)
    requires JoinProducts(rows, products).Some?
    ensures CartLinesTotal(rows, JoinProducts(rows, products).value) == CartValue(rows, products)
  {
    if |rows| > 0 {
      JoinedTotalIsCartValue(rows[1..], products);
    }
  }

  /** The order a successful checkout of `user`'s cart appends to the store
      `s`, giving `t`: exactly one new `Pending` order with one frozen line per
      cart row, whose total is the cart's value and the sum of its own lines. */
  ghost predicate OrderPlaced(s: Store, t: Store, user: User, now: int, orderId: int) {
    var rows := RowsOf(s.cart, user.id);
    && |rows| > 0
    && |t.orders| == |s.orders| + 1
    && t.orders[..|s.orders|] == s.orders
    && var o := t.orders[|s.orders|];
    && o.id == orderId
    && o.userId == user.id
    && o.orderDate == now
    && o.status == Pending
    && |o.items| == |rows|
    && (forall i :: 0 <= i < |rows| ==> SnapshotOf(o.items[i], rows[i], s.products))
    && o.totalAmount == CartValue(rows, s.products)
    && o.totalAmount == ItemsTotal(o.items)
    // the identity column hands out a key no earlier order has
    && (OrderKeys(s.orders, s.nextOrderId) ==> forall i :: 0 <= i < |s.orders| ==> s.orders[i].id != orderId)
  }

  /** The rest of a successful checkout's save: the caller's cart rows are
      gone, every other user's rows are kept in order, and the users and the
      catalogue are as they were. */
  ghost predicate CartCleared(s: Store, t: Store, user: User) {
    && RowsOf(t.cart, user.id) == []
    && (forall u :: u != user.id ==> RowsOf(t.cart, u) == RowsOf(s.cart, u))
    && t.users == s.users
    && t.products == s.products
  }

  /** `Checkout`: the caller's cart becomes a `Pending` order and the cart is
      emptied, both in one save; the reply carries the new order's id. */
  function Checkout(s: Store, p: Principal, now: int): (r: Step<int>)
    ensures CurrentUser(s, p).None? ==> r == Step(Unauthorized, s)
    ensures CurrentUser(s, p).Some? && RowsOf(s.cart, CurrentUser(s, p).value.id) == [] ==>
      r == Step(BadRequest, s)
    ensures CurrentUser(s, p).Some? && RowsOf(s.cart, CurrentUser(s, p).value.id) != [] ==>
      (r.reply.Ok? <==> JoinProducts(RowsOf(s.cart, CurrentUser(s, p).value.id), s.products).Some?)
    ensures r.reply.Ok? || r.reply.Unauthorized? || r.reply.BadRequest? || r.reply.ServerError?
    ensures !r.reply.Ok? ==> r.next == s
    ensures r.reply.Ok? ==> CurrentUser(s, p).Some?
    ensures r.reply.Ok? ==> OrderPlaced(s, r.next, CurrentUser(s, p).value, now, r.reply.body)
    ensures r.reply.Ok? ==> CartCleared(s, r.next, CurrentUser(s, p).value)
    ensures r.reply.Ok? ==>
      && r.reply.body == s.nextOrderId
      && r.next == s.(orders := r.next.orders, cart := RowsNotOf(s.cart, CurrentUser(s, p).value.id),
                      nextOrderId := s.nextOrderId + 1)
  {
    match CurrentUser(s, p)
    case None => Step(Unauthorized, s)
    case Some(user) =>
      var rows := RowsOf(s.cart, user.id);
      if |rows| == 0 then Step(BadRequest, s)
      else match JoinProducts(rows, s.products)
        // a row naming no product: the foreign key of `CartItem` keeps this
        // out of the database (`Valid` excludes it), so the answer here is
        // the model's own
        case None => Step(ServerError, s)
        case Some(ps) =>
          var order := Order(s.nextOrderId, user.id, now, CartLinesTotal(rows, ps), Pending, SnapshotItems(rows, ps));
          var t := s.(orders := s.orders + [order], cart := RowsNotOf(s.cart, user.id), nextOrderId := s.nextOrderId + 1);
          PlacedOrder(s, user, now, rows, ps, order, t);
          ClearedCart(s, user, t);
          Step(Ok(order.id), t)
  }

  /** The order the successful branch of `Checkout` appends is the one
      `OrderPlaced` describes. */
  lemma PlacedOrder(s: Store, user: User, now: int, rows: seq<CartItem>, ps: seq<Product>, order: Order, t: Store)
    requires rows == RowsOf(s.cart, user.id) && |rows| > 0
    requires JoinProducts(rows, s.products) == Some(ps)
    requires order == Order(s.nextOrderId, user.id, now, CartLinesTotal(rows, ps), Pending, SnapshotItems(rows, ps))
    requires t.orders == s.orders + [order]
    ensures OrderPlaced(s, t, user, now, order.id)
  {
    SnapshotTotal(rows, ps);
    JoinedTotalIsCartValue(rows, s.products);
    assert t.orders[..|s.orders|] == s.orders;
    assert t.orders[|s.orders|] == order;
    forall i | 0 <= i < |rows|
      ensures SnapshotOf(order.items[i], rows[i], s.products)
    {
      assert LookupProduct(s.products, rows[i].productId) == Some(ps[i]);
    }
  }

  /** The cart the successful branch of `Checkout` saves is the one
      `CartCleared` describes. */
  lemma ClearedCart(s: Store, user: User, t: Store)
    requires t.cart == RowsNotOf(s.cart, user.id)
    requires t.users == s.users && t.products == s.products
    ensures CartCleared(s, t, user)
  {
    RowsOfAfterRemoval(s.cart, user.id);
    forall u | u != user.id
      ensures RowsOf(t.cart, u) == RowsOf(s.cart, u)
    {
      RowsOfRowsNotOf(s.cart, user.id, u);
    }
  }

  /** `GetMyOrders`: the caller's orders and nobody else's, newest first. */
  function GetMyOrders(s: Store, p: Principal): (r: Reply<seq<Order>>)
    ensures CurrentUser(s, p).None? <==> r == Unauthorized
    ensures r.Ok? || r.Unauthorized?
    ensures r.Ok? ==> NewestFirst(r.body)
    ensures r.Ok? ==> forall o ::
      multiset(r.body)[o] == (if o.userId == CurrentUser(s, p).value.id then multiset(s.orders)[o] else 0)
  {
    match CurrentUser(s, p)
    case None => Unauthorized
    case Some(user) => Ok(SortNewestFirst(OrdersOf(s.orders, user.id)))
  }

  /** The order a checkout places is listed among the caller's orders
      right after. */
  lemma CheckoutThenListed(s: Store, p: Principal, now: int)
    requires Checkout(s, p, now).reply.Ok?
    ensures var t := Checkout(s, p, now).next;
      && GetMyOrders(t, p).Ok?
      && t.orders[|s.orders|] in GetMyOrders(t, p).body
      && t.orders[|s.orders|].id == Checkout(s, p, now).reply.body
  {
    var t := Checkout(s, p, now).next;
    var user := CurrentUser(s, p).value;
    CurrentUserReadsOnlyUsers(s, t, p);
    var o := t.orders[|s.orders|];
    assert o in t.orders;
    assert multiset(GetMyOrders(t, p).body)[o] == multiset(t.orders)[o] > 0;
  }

  /** On a valid store a checkout never faults: a known caller with a
      non-empty cart always gets an order, because every row names an
      existing product. */
  lemma CheckoutSucceeds(s: Store, p: Principal, now: int)
    requires Valid(s)
    requires CurrentUser(s, p).Some? && RowsOf(s.cart, CurrentUser(s, p).value.id) != []
    ensures Checkout(s, p, now).reply.Ok?
  {
    var rows := RowsOf(s.cart, CurrentUser(s, p).value.id);
    forall i | 0 <= i < |rows|
      ensures LookupProduct(s.products, rows[i].productId).Some?
    {
      assert multiset(rows)[rows[i]] > 0;
      assert rows[i] in s.cart;
      assert HasProduct(s.products, rows[i].productId);
    }
  }

  /** Appending an order that takes the counter's key keeps order keys
      distinct and below the advanced counter. */
  lemma AppendOrderKeys(orders: seq<Order>, o: Order, next: int)
    requires OrderKeys(orders, next) && o.id == next
    ensures OrderKeys(orders + [o], next + 1)
  {
  }

  /** Appending an order whose total matches its lines keeps every total
      consistent. */
  lemma AppendTotals(orders: seq<Order>, o: Order)
    requires TotalsConsistent(orders) && o.totalAmount == ItemsTotal(o.items)
    ensures TotalsConsistent(orders + [o])
  {
  }

  /** The save of a successful checkout keeps the store invariant: one
      order with the counter's key and a consistent total is appended, and
      the user's cart rows are dropped. */
  lemma CheckoutSaveValid(s: Store, userId: int, order: Order)
    requires Valid(s)
    requires order.id == s.nextOrderId && order.totalAmount == ItemsTotal(order.items)
    ensures Valid(s.(orders := s.orders + [order], cart := RowsNotOf(s.cart, userId), nextOrderId := s.nextOrderId + 1))
  {
    AppendOrderKeys(s.orders, order, s.nextOrderId);
    AppendTotals(s.orders, order);
    var f := (c: CartItem) => c.userId != userId;
    assert RowsNotOf(s.cart, userId) == Filter(s.cart, f);
    FilterKeepsCartKeys(s.cart, f, s.nextCartId);
    FilterKeepsCartUnique(s.cart, f);
    FilterKeepsCartProducts(s.cart, f, s.products);
  }

  /** The store a successful checkout saves: one order keyed by the order
      counter, whose total is the sum of its lines, appended, and the
      caller's cart rows dropped. */
  lemma CheckoutSave(s: Store, p: Principal, now: int) returns (order: Order)
    requires Checkout(s, p, now).reply.Ok?
    ensures order.id == s.nextOrderId && order.totalAmount == ItemsTotal(order.items)
    ensures Checkout(s, p, now).next ==
      s.(orders := s.orders + [order], cart := RowsNotOf(s.cart, CurrentUser(s, p).value.id), nextOrderId := s.nextOrderId + 1)
  {
    var t := Checkout(s, p, now).next;
    order := t.orders[|s.orders|];
    assert t.orders == s.orders + [order];
  }

  /** A checkout keeps the store invariant: the new order takes a fresh key
      and its total matches its lines, and the cart loses whole rows only. */
  lemma CheckoutPreservesValid(s: Store, p: Principal, now: int)
    requires Valid(s)
    ensures Valid(Checkout(s, p, now).next)
  {
    if Checkout(s, p, now).reply.Ok? {
      var order := CheckoutSave(s, p, now);
      CheckoutSaveValid(s, CurrentUser(s, p).value.id, order);
    }
  }

  /** The worked example below: alice holds 2 pieces of P at 10.00 and 1
      piece of Q at 5.50. */
  const ScenarioUser := User(1, "alice", "h", UserRole)
  const ScenarioP := Product(10, "P", "", 1000, None, "")
  const ScenarioQ := Product(11, "Q", "", 550, None, "")
  const ScenarioCart := [CartItem(1, 1, 10, 2), CartItem(2, 1, 11, 1)]
  const ScenarioStore := Store([ScenarioUser], [ScenarioP, ScenarioQ], ScenarioCart, [], 2, 12, 3, 1)

  /** Both of alice's rows find their product. */
  lemma ScenarioJoin()
    ensures JoinProducts(ScenarioCart, ScenarioStore.products) == Some([ScenarioP, ScenarioQ])
  {
    var s := ScenarioStore;
    assert s.products[0].id == 10 && s.products[1].id == 11;
    assert FindProduct(s.products, 10) == Some(0);
    assert FindProduct(s.products, 11) == Some(1);
    assert LookupProduct(s.products, 10) == Some(ScenarioP) && LookupProduct(s.products, 11) == Some(ScenarioQ);
    var joined := JoinProducts(ScenarioCart, s.products);
    assert joined.Some?;
    assert joined.value[0] == ScenarioP && joined.value[1] == ScenarioQ;
    assert joined.value == [ScenarioP, ScenarioQ];
  }

  /** The lines of alice's cart: 2 x 10.00 + 1 x 5.50. */
  lemma ScenarioLines()
    ensures CartLinesTotal(ScenarioCart, [ScenarioP, ScenarioQ]) == 2550
    ensures SnapshotItems(ScenarioCart, [ScenarioP, ScenarioQ]) == [OrderItem(10, "P", 1000, 2), OrderItem(11, "Q", 550, 1)]
  {
    var cart := ScenarioCart;
    assert cart[1..] == [cart[1]] && [ScenarioP, ScenarioQ][1..] == [ScenarioQ];
    assert CartLinesTotal(cart[1..], [ScenarioQ]) == 550;
  }

  /** A worked checkout: alice's cart becomes a `Pending` order of 25.50 with
      two lines, keyed by the order counter, and her cart is left empty. */
  lemma CheckoutScenario()
    ensures
      var r := Checkout(ScenarioStore, Authenticated(Some("alice"), Some(UserRole)), 42);
      && r.reply == Ok(1)
      && r.next.cart == []
      && r.next.orders == [Order(1, 1, 42, 2550, Pending,
           [OrderItem(10, "P", 1000, 2), OrderItem(11, "Q", 550, 1)])]
  {
    var s := ScenarioStore;
    var cart := ScenarioCart;
    assert FindUserByName(s.users, "alice") == Some(0);
    assert CurrentUser(s, Authenticated(Some("alice"), Some(UserRole))) == Some(ScenarioUser);
    assert cart[1..][1..] == [];
    assert RowsOf(cart, 1) == cart;
    assert RowsNotOf(cart, 1) == [];
    ScenarioJoin();
    ScenarioLines();
  }
}

=== FILE: products.dfy ===
/** `ProductController`: the public catalogue query and point lookup, and
    the three catalogue edits that sit behind the Admin role gate. */
module ProductController {
  import opened Base
  import opened Models
  import opened Http
  import opened Queries
  import opened Identity
  import opened OrderController

  /** The query string of `GetProducts`; page 1 and 5 per page when omitted. */
  datatype ProductQuery = ProductQuery(
    keyword: Option<string>,
    minPrice: Option<Cents>,
    maxPrice: Option<Cents>,
    page: Int32,
    pageSize: Int32)

  /** The query an empty query string binds to. */
  function DefaultQuery(): ProductQuery {
    ProductQuery(None, None, None, 1, 5)
  }

  /** The anonymous object `GetProducts` answers with. */
  datatype ProductPage = ProductPage(totalCount: int, page: Int32, pageSize: Int32, data: seq<Product>)

  /** The keyword filter applies only to a non-empty keyword. */
  predicate KeywordMatches(keyword: Option<string>, p: Product) {
    keyword.None? || keyword.value == [] ||
    Contains(p.name, keyword.value) || Contains(p.description, keyword.value)
  }

  /** The conjunction of the three `Where` clauses; the price bounds are
      inclusive and each applies only when supplied. */
  predicate Matches(q: ProductQuery, p: Product) {
    && KeywordMatches(q.keyword, p)
    && (q.minPrice.None? || p.price >= q.minPrice.value)
    && (q.maxPrice.None? || p.price <= q.maxPrice.value)
  }

  /** The products that pass the query's filters, in catalogue order. */
  function FilterProducts(products: seq<Product>, q: ProductQuery): (r: seq<Product>)
    ensures |r| <= |products|
    ensures forall i :: 0 <= i < |r| ==> Matches(q, r[i])
    ensures forall x :: multiset(r)[x] == if Matches(q, x) then multiset(products)[x] else 0
  {
    Filter(products, (x: Product) => Matches(q, x))
  }

  /** LINQ `Skip(n)`: drops the first `n` elements, none when `n` is not
      positive and all when `n` passes the end. */
  function Skip<T>(xs: seq<T>, n: int): (r: seq<T>)
    ensures |r| == if n <= 0 then |xs| else if n >= |xs| then 0 else |xs| - n
    ensures forall i :: 0 <= i < |r| ==> r[i] == xs[i + |xs| - |r|]
  {
    if n <= 0 then xs else if n >= |xs| then [] else xs[n..]
  }

  /** LINQ `Take(n)`: keeps the first `n` elements, none when `n` is not
      positive and all when `n` passes the end. */
  function Take<T>(xs: seq<T>, n: int): (r: seq<T>)
    ensures |r| == if n <= 0 then 0 else if n >= |xs| then |xs| else n
    ensures r == xs[..|r|]
  {
    if n <= 0 then [] else if n >= |xs| then xs else xs[..n]
  }

  /** The number of rows `GetProducts` skips: `(page - 1) * pageSize` in
      C#'s wrapping `int` arithmetic. */
  function Offset(q: ProductQuery): (r: Int32)
    ensures (r - (q.page - 1) * q.pageSize) % 0x1_0000_0000 == 0
    ensures q.page >= 1 && IsInt32((q.page - 1) * q.pageSize) ==> r == (q.page - 1) * q.pageSize
  {
    var a := Wrap32(q.page - 1);
    var r := Wrap32(a * q.pageSize);
    WrapTimes(q.page - 1, a, q.pageSize, r);
    r
  }

  /** Wrapping a factor first and the product afterwards still yields a
      value congruent to the exact product modulo 2^32. */
  lemma WrapTimes(x: int, a: int, y: int, r: int)
    requires (x - a) % 0x1_0000_0000 == 0
    requires (a * y - r) % 0x1_0000_0000 == 0
    ensures (r - x * y) % 0x1_0000_0000 == 0
  {
    var m := 0x1_0000_0000;
    var k := (x - a) / m;
    var j := (a * y - r) / m;
    assert x - a == m * k;
    assert a * y - r == m * j;
    assert r - x * y == m * (-(k * y) - j) by {
      assert x * y == a * y + m * k * y;
    }
  }

  /** `GetProducts`: filter, count, then cut out the requested page. */
  function GetProducts(s: Store, q: ProductQuery): (r: ProductPage)
    ensures r.totalCount == |FilterProducts(s.products, q)|
    ensures r.page == q.page && r.pageSize == q.pageSize
    ensures |r.data| <= r.totalCount
    ensures q.pageSize >= 0 ==> |r.data| <= q.pageSize
    ensures forall x :: x in r.data ==> x in s.products && Matches(q, x)
    ensures IsPage(r.data, FilterProducts(s.products, q), q)
  {
    var filtered := FilterProducts(s.products, q);
    var data := Take(Skip(filtered, Offset(q)), q.pageSize);
    PageWithin(filtered, Offset(q), q.pageSize);
    FilteredFromCatalogue(s.products, q);
    PageOfQuery(filtered, q);
    ProductPage(|filtered|, q.page, q.pageSize, data)
  }

  /** With an empty query string the count is the whole catalogue's and the
      page is its first five products. */
  lemma DefaultQueryFirstPage(s: Store)
    ensures var r := GetProducts(s, DefaultQuery());
      && r.totalCount == |s.products|
      && r.data == s.products[..Min(5, |s.products|)]
  {
    var q := DefaultQuery();
    FilterKeepsAll(s.products, (x: Product) => Matches(q, x));
    assert FilterProducts(s.products, q) == s.products;
  }

  /** Searching for a product's own name finds that product. */
  lemma SearchByNameFinds(s: Store, x: Product)
    requires x in s.products
    ensures x in FilterProducts(s.products, ProductQuery(Some(x.name), None, None, 1, 5))
  {
    var q := ProductQuery(Some(x.name), None, None, 1, 5);
    ContainsSelfAndEmpty(x.name);
    assert Matches(q, x);
    assert multiset(FilterProducts(s.products, q))[x] == multiset(s.products)[x] > 0;
  }

  /** A page holds nothing but elements of what it was cut from. */
  lemma PageWithin<T>(xs: seq<T>, start: int, size: int)
    ensures forall x :: x in Take(Skip(xs, start), size) ==> x in xs
  {
    var page := Take(Skip(xs, start), size);
    forall x | x in page
      ensures x in xs
    {
      var i :| 0 <= i < |page| && page[i] == x;
      assert x == Skip(xs, start)[i];
    }
  }

  /** Every filtered product is a catalogue product that matches. */
  lemma FilteredFromCatalogue(products: seq<Product>, q: ProductQuery)
    ensures forall x :: x in FilterProducts(products, q) ==> x in products && Matches(q, x)
  {
    var r := FilterProducts(products, q);
    forall x | x in r
      ensures x in products
    {
      assert multiset(r)[x] > 0;
    }
  }

  /** For a page number of at least 1, a non-negative page size and an offset
      `(page - 1) * pageSize` that fits an `int`, `data` is the slice
      `[(page - 1) * pageSize, (page - 1) * pageSize + pageSize)` of `xs`,
      clipped to its end. */
  ghost predicate IsPage<T>(data: seq<T>, xs: seq<T>, q: ProductQuery) {
    q.page >= 1 && q.pageSize >= 0 && IsInt32((q.page - 1) * q.pageSize) ==>
      var start := (q.page - 1) * q.pageSize;
      && (start >= |xs| ==> data == [])
      && (start < |xs| ==> data == xs[start..Min(start + q.pageSize, |xs|)])
  }

  /** When `(page - 1) * pageSize` does not wrap, the page is the slice the
      page number and size describe. */
  lemma PageOfQuery<T>(xs: seq<T>, q: ProductQuery)
    ensures IsPage(Take(Skip(xs, Offset(q)), q.pageSize), xs, q)
  {
    if q.page >= 1 && q.pageSize >= 0 && IsInt32((q.page - 1) * q.pageSize) {
      assert Offset(q) == (q.page - 1) * q.pageSize;
      PageIsSlice(xs, (q.page - 1) * q.pageSize, q.pageSize);
    }
  }

  /** For a non-negative start and size, skipping then taking cuts out the
      slice `[start, start + size)`, clipped to the end. */
  lemma PageIsSlice<T>(xs: seq<T>, start: int, size: int)
    requires start >= 0 && size >= 0
    ensures start >= |xs| ==> Take(Skip(xs, start), size) == []
    ensures start < |xs| ==> Take(Skip(xs, start), size) == xs[start..Min(start + size, |xs|)]
  {
  }

  function Min(a: int, b: int): int {
    if a <= b then a else b
  }

  /** `GetProduct`: the product keyed `id`, or 404. */
  function GetProduct(s: Store, id: int): (r: Reply<Product>)
    ensures r.Ok? || r.NotFound?
    ensures r.NotFound? <==> forall j :: 0 <= j < |s.products| ==> s.products[j].id != id
    ensures r.Ok? ==> r.body in s.products && r.body.id == id
  {
    match LookupProduct(s.products, id)
    case None => NotFound
    case Some(p) => Ok(p)
  }

  /** The `[Required]` check on `Product.Name` that `[ApiController]` runs
      before the action. */
  predicate ProductModelValid(product: Product) {
    !IsBlank(product.name)
  }

  /** `PostProduct`: the client's id is discarded, the identity column hands
      out a new key, and exactly one product is appended. */
  function PostProduct(s: Store, p: Principal, product: Product): (r: Step<Product>)
    ensures AdminGate(p).Some? ==> r.next == s && (r.reply.Unauthorized? || r.reply.Forbidden?)
    ensures AdminGate(p) == Some(NotSignedIn) <==> r.reply.Unauthorized?
    ensures AdminGate(p) == Some(WrongRole) <==> r.reply.Forbidden?
    ensures r.reply.BadRequest? <==> AdminGate(p).None? && !ProductModelValid(product)
    ensures r.reply.Created? <==> AdminGate(p).None? && ProductModelValid(product)
    ensures r.reply.Created? || r.reply.BadRequest? || r.reply.Unauthorized? || r.reply.Forbidden?
    ensures !r.reply.Created? ==> r.next == s
    ensures r.reply.Created? ==>
      && r.reply.body == product.(id := s.nextProductId)
      && r.next.products == s.products + [r.reply.body]
      && r.next.nextProductId == s.nextProductId + 1
      && (ProductKeys(s.products, s.nextProductId) ==> LookupProduct(s.products, r.reply.body.id).None?)
    ensures r.next == s.(products := r.next.products, nextProductId := r.next.nextProductId)
  {
    match AdminGate(p)
    case Some(d) => Step(DenialReply(d), s)
    case None =>
      if !ProductModelValid(product) then Step(BadRequest, s)
      else
        var created := product.(id := s.nextProductId);
        Step(Created(created), s.(products := s.products + [created], nextProductId := s.nextProductId + 1))
  }

  /** `PutProduct`: a record whose id differs from the route's is refused, a
      missing key gives 404, and otherwise that one record is replaced. */
  function PutProduct(s: Store, p: Principal, id: int, product: Product): (r: Step<()>)
    ensures AdminGate(p).Some? ==> r.next == s && (r.reply.Unauthorized? || r.reply.Forbidden?)
    ensures AdminGate(p) == Some(NotSignedIn) <==> r.reply.Unauthorized?
    ensures AdminGate(p) == Some(WrongRole) <==> r.reply.Forbidden?
    ensures r.reply.BadRequest? <==> AdminGate(p).None? && (!ProductModelValid(product) || id != product.id)
    ensures r.reply.NotFound? <==>
      AdminGate(p).None? && ProductModelValid(product) && id == product.id &&
      forall j :: 0 <= j < |s.products| ==> s.products[j].id != id
    ensures AdminGate(p).None? && ProductModelValid(product) && id == product.id && HasProduct(s.products, id) ==>
      r.reply.NoContent?
    ensures r.reply.NoContent? || r.reply.NotFound? || r.reply.BadRequest? || r.reply.Unauthorized? || r.reply.Forbidden?
    ensures !r.reply.NoContent? ==> r.next == s
    ensures r.reply.NoContent? ==>
      && FindProduct(s.products, id).Some?
      && |r.next.products| == |s.products|
      && r.next.products[FindProduct(s.products, id).value] == product
      && (forall j :: 0 <= j < |s.products| && j != FindProduct(s.products, id).value ==>
            r.next.products[j] == s.products[j])
      && r.next == s.(products := r.next.products)
  {
    match AdminGate(p)
    case Some(d) => Step(DenialReply(d), s)
    case None =>
      if !ProductModelValid(product) then Step(BadRequest, s)
      else if id != product.id then Step(BadRequest, s)
      else match FindProduct(s.products, id)
        // the UPDATE touches no row: the concurrency exception is caught and,
        // the key being absent, answered with 404
        case None => Step(NotFound, s)
        case Some(i) => Step(NoContent, s.(products := s.products[i := product]))
  }

  /** `DeleteProduct`: 404 for a missing key, otherwise exactly that record
      is removed, and with it, by the cascade of the required foreign key
      of `CartItem`, every cart row naming it. Orders only copy the product
      id and are untouched. */
  function DeleteProduct(s: Store, p: Principal, id: int): (r: Step<()>)
    ensures AdminGate(p).Some? ==> r.next == s && (r.reply.Unauthorized? || r.reply.Forbidden?)
    ensures AdminGate(p) == Some(NotSignedIn) <==> r.reply.Unauthorized?
    ensures AdminGate(p) == Some(WrongRole) <==> r.reply.Forbidden?
    ensures r.reply.NotFound? <==>
      AdminGate(p).None? && forall j :: 0 <= j < |s.products| ==> s.products[j].id != id
    ensures AdminGate(p).None? && HasProduct(s.products, id) ==> r.reply.Ok?
    ensures r.reply.Ok? || r.reply.NotFound? || r.reply.Unauthorized? || r.reply.Forbidden?
    ensures !r.reply.Ok? ==> r.next == s
    ensures r.reply.Ok? ==>
      && FindProduct(s.products, id).Some?
      && var i := FindProduct(s.products, id).value;
      && r.next.products == s.products[..i] + s.products[i + 1..]
      && (forall c :: multiset(r.next.cart)[c] == if c.productId == id then 0 else multiset(s.cart)[c])
      && r.next == s.(products := r.next.products, cart := r.next.cart)
    ensures r.reply.Ok? && ProductKeys(s.products, s.nextProductId) ==>
      LookupProduct(r.next.products, id).None? && |r.next.products| == |s.products| - 1
  {
    match AdminGate(p)
    case Some(d) => Step(DenialReply(d), s)
    case None =>
      match FindProduct(s.products, id)
      case None => Step(NotFound, s)
      case Some(i) =>
        var t := s.(products := s.products[..i] + s.products[i + 1..], cart := RowsNotFor(s.cart, id));
        assert forall j :: 0 <= j < |t.products| ==> t.products[j] == if j < i then s.products[j] else s.products[j + 1];
        Step(Ok(()), t)
  }

  /** Adding a product keeps the store invariant. */
  lemma PostPreservesValid(s: Store, p: Principal, product: Product)
    requires Valid(s)
    ensures Valid(PostProduct(s, p, product).next)
  {
    var t := PostProduct(s, p, product).next;
    forall c | c in t.cart
      ensures HasProduct(t.products, c.productId)
    {
      assert c in s.cart;
      var j :| 0 <= j < |s.products| && s.products[j].id == c.productId;
      assert t.products[j] == s.products[j];
    }
  }

  /** Replacing a product keeps the store invariant: its key is unchanged. */
  lemma PutPreservesValid(s: Store, p: Principal, id: int, product: Product)
    requires Valid(s)
    ensures Valid(PutProduct(s, p, id, product).next)
  {
    var t := PutProduct(s, p, id, product).next;
    if t != s {
      assert forall j :: 0 <= j < |s.products| ==> t.products[j].id == s.products[j].id;
      forall c | c in t.cart
        ensures HasProduct(t.products, c.productId)
      {
        var j :| 0 <= j < |s.products| && s.products[j].id == c.productId;
        assert t.products[j].id == c.productId;
      }
    }
  }

  /** Removing a product keeps the store invariant. */
  lemma DeletePreservesValid(s: Store, p: Principal, id: int)
    requires Valid(s)
    ensures Valid(DeleteProduct(s, p, id).next)
  {
    var r := DeleteProduct(s, p, id);
    if r.reply.Ok? {
      var i := FindProduct(s.products, id).value;
      RemovalKeepsProductKeys(s.products, i, s.nextProductId);
      var f := (c: CartItem) => c.productId != id;
      assert r.next.cart == Filter(s.cart, f);
      FilterKeepsCartKeys(s.cart, f, s.nextCartId);
      FilterKeepsCartUnique(s.cart, f);
      CascadeKeepsCartProducts(s.cart, s.products, i);
    }
  }

  /** Removing one product keeps the product keys distinct and below the
      counter. */
  lemma RemovalKeepsProductKeys(products: seq<Product>, i: nat, next: int)
    requires i < |products| && ProductKeys(products, next)
    ensures ProductKeys(products[..i] + products[i + 1..], next)
  {
    var ps := products[..i] + products[i + 1..];
    assert forall j :: 0 <= j < |ps| ==> ps[j] == if j < i then products[j] else products[j + 1];
  }

  /** Removing the product at `i` together with every cart row naming it
      leaves a cart whose rows all name a remaining product, when product
      keys are distinct. */
  lemma CascadeKeepsCartProducts(cart: seq<CartItem>, products: seq<Product>, i: nat)
    requires i < |products|
    requires forall a, b :: 0 <= a < b < |products| ==> products[a].id != products[b].id
    requires CartProductsExist(cart, products)
    ensures CartProductsExist(RowsNotFor(cart, products[i].id), products[..i] + products[i + 1..])
  {
    var id := products[i].id;
    var rest := RowsNotFor(cart, id);
    var ps := products[..i] + products[i + 1..];
    forall c | c in rest
      ensures HasProduct(ps, c.productId)
    {
      assert multiset(rest)[c] > 0;
      assert c in cart && c.productId != id;
      var j :| 0 <= j < |products| && products[j].id == c.productId;
      if j < i {
        assert ps[j] == products[j];
      } else {
        assert j > i;
        assert ps[j - 1] == products[j];
      }
    }
  }

  /** An order keeps its lines whatever the catalogue does afterwards: after
      a checkout, editing, deleting or adding a product leaves every order,
      the new one included, exactly as the checkout wrote it. */
  lemma SnapshotSurvivesCatalogueEdits(s: Store, buyer: Principal, now: int, admin: Principal, id: int, product: Product)
    requires Checkout(s, buyer, now).reply.Ok?
    ensures var placed := Checkout(s, buyer, now).next;
      && PutProduct(placed, admin, id, product).next.orders == placed.orders
      && DeleteProduct(placed, admin, id).next.orders == placed.orders
      && PostProduct(placed, admin, product).next.orders == placed.orders
      && OrderPlaced(s, placed, CurrentUser(s, buyer).value, now, Checkout(s, buyer, now).reply.body)
  {
  }

  /** A product just added is what fetching its new key returns. */
  lemma PostThenGet(s: Store, p: Principal, product: Product)
    requires ProductKeys(s.products, s.nextProductId)
    requires PostProduct(s, p, product).reply.Created?
    ensures var r := PostProduct(s, p, product);
      GetProduct(r.next, r.reply.body.id) == Ok(r.reply.body)
  {
    var r := PostProduct(s, p, product);
    var ps := r.next.products;
    assert ps[|s.products|] == r.reply.body;
    assert forall j :: 0 <= j < |s.products| ==> ps[j] == s.products[j];
    assert FindProduct(ps, r.reply.body.id) == Some(|s.products|);
  }

  /** A product just replaced is what fetching its key returns, when keys
      are distinct. */
  lemma PutThenGet(s: Store, p: Principal, id: int, product: Product)
    requires ProductKeys(s.products, s.nextProductId)
    requires PutProduct(s, p, id, product).reply.NoContent?
    ensures GetProduct(PutProduct(s, p, id, product).next, id) == Ok(product)
  {
    var i := FindProduct(s.products, id).value;
    var ps := PutProduct(s, p, id, product).next.products;
    assert forall j :: 0 <= j < |ps| && j != i ==> ps[j].id != id;
    assert FindProduct(ps, id) == Some(i);
  }

  /** A product just deleted can no longer be fetched, when keys are
      distinct. */
  lemma DeleteThenGet(s: Store, p: Principal, id: int)
    requires ProductKeys(s.products, s.nextProductId)
    requires DeleteProduct(s, p, id).reply.Ok?
    ensures GetProduct(DeleteProduct(s, p, id).next, id) == NotFound
  {
  }
}

=== FILE: queries.dfy ===
/** The store lookups the controllers issue: `FirstOrDefaultAsync` and
    `FindAsync` become "the first row that matches", and `Where` becomes an
    order-preserving filter. */
module Queries {
  import opened Base
  import opened Models

  /** Index of the first element that satisfies `f`, or `None` when none
      does: the one search behind every `FirstOrDefaultAsync` and
      `FindAsync` of the controllers. */
  function FindFirst<T>(xs: seq<T>, f: T -> bool): (r: Option<nat>)
    ensures r.Some? ==> r.value < |xs| && f(xs[r.value])
    ensures r.Some? ==> forall j :: 0 <= j < r.value ==> !f(xs[j])
    ensures r.None? <==> forall j :: 0 <= j < |xs| ==> !f(xs[j])
  {
    if |xs| == 0 then None
    else if f(xs[0]) then Some(0)
    else match FindFirst(xs[1..], f)
      case None => None
      case Some(i) => Some(i + 1)
  }

  /** The first match depends only on which positions match. */
  lemma FirstMatchUnique<T, U>(a: seq<T>, f: T -> bool, b: seq<U>, g: U -> bool)
    requires |a| == |b|
    requires forall j :: 0 <= j < |a| ==> f(a[j]) == g(b[j])
    ensures FindFirst(a, f) == FindFirst(b, g)
  {
    var x, y := FindFirst(a, f), FindFirst(b, g);
    if x.Some? && y.Some? {
      assert !(x.value < y.value) && !(y.value < x.value);
    }
  }

  /** Index of the first user called `name`. */
  function FindUserByName(users: seq<User>, name: string): (r: Option<nat>)
    ensures r.Some? ==> r.value < |users| && users[r.value].username == name
    ensures r.Some? ==> forall j :: 0 <= j < r.value ==> users[j].username != name
    ensures r.None? <==> forall j :: 0 <= j < |users| ==> users[j].username != name
  {
    FindFirst(users, (u: User) => u.username == name)
  }

  /** Index of the product whose key is `id`. */
  function FindProduct(products: seq<Product>, id: int): (r: Option<nat>)
    ensures r.Some? ==> r.value < |products| && products[r.value].id == id
    ensures r.Some? ==> forall j :: 0 <= j < r.value ==> products[j].id != id
    ensures r.None? <==> forall j :: 0 <= j < |products| ==> products[j].id != id
  {
    FindFirst(products, (p: Product) => p.id == id)
  }

  /** The product whose key is `id`, as `FindAsync` and `Include(c => c.Product)` load it. */
  function LookupProduct(products: seq<Product>, id: int): (r: Option<Product>)
    ensures r.Some? ==> r.value in products && r.value.id == id
    ensures r.None? <==> forall j :: 0 <= j < |products| ==> products[j].id != id
  {
    match FindProduct(products, id)
    case None => None
    case Some(i) => Some(products[i])
  }

  /** Index of the first cart row of `userId` for `productId`. */
  function FindCartRow(cart: seq<CartItem>, userId: int, productId: int): (r: Option<nat>)
    ensures r.Some? ==> r.value < |cart| && cart[r.value].userId == userId && cart[r.value].productId == productId
    ensures r.Some? ==> forall j :: 0 <= j < r.value ==> cart[j].userId != userId || cart[j].productId != productId
    ensures r.None? <==> forall j :: 0 <= j < |cart| ==> cart[j].userId != userId || cart[j].productId != productId
  {
    FindFirst(cart, (c: CartItem) => c.userId == userId && c.productId == productId)
  }

  /** Index of the order whose key is `id`. */
  function FindOrder(orders: seq<Order>, id: int): (r: Option<nat>)
    ensures r.Some? ==> r.value < |orders| && orders[r.value].id == id
    ensures r.Some? ==> forall j :: 0 <= j < r.value ==> orders[j].id != id
    ensures r.None? <==> forall j :: 0 <= j < |orders| ==> orders[j].id != id
  {
    FindFirst(orders, (o: Order) => o.id == id)
  }

  /** The elements that satisfy `f`, in their original order: the one
      filter behind every `Where` of the controllers. */
  function Filter<T(!new)>(xs: seq<T>, f: T -> bool): (r: seq<T>)
    ensures |r| <= |xs|
    ensures forall i :: 0 <= i < |r| ==> f(r[i])
    ensures forall x :: multiset(r)[x] == if f(x) then multiset(xs)[x] else 0
  {
    if |xs| == 0 then []
    else
      assert xs == [xs[0]] + xs[1..];
      (if f(xs[0]) then [xs[0]] else []) + Filter(xs[1..], f)
  }

  /** A filter every element passes returns its input unchanged. */
  lemma {:induction false} FilterKeepsAll<T(!new)>(xs: seq<T>, f: T -> bool)
    requires forall i :: 0 <= i < |xs| ==> f(xs[i])
    ensures Filter(xs, f) == xs
  {
    if |xs| > 0 {
      FilterKeepsAll(xs[1..], f);
      assert xs == [xs[0]] + xs[1..];
    }
  }

  /** Filtering distributes over concatenation. */
  lemma {:induction false} FilterAppend<T(!new)>(a: seq<T>, b: seq<T>, f: T -> bool)
    ensures Filter(a + b, f) == Filter(a, f) + Filter(b, f)
  {
    if |a| == 0 {
      assert a + b == b;
    } else {
      assert (a + b)[0] == a[0];
      assert (a + b)[1..] == a[1..] + b;
      FilterAppend(a[1..], b, f);
    }
  }

  /** Filtering by `g` and then by a stronger `f` is filtering by `f`, order
      included. */
  lemma {:induction false} FilterOfFilter<T(!new)>(xs: seq<T>, g: T -> bool, f: T -> bool)
    requires forall x :: f(x) ==> g(x)
    ensures Filter(Filter(xs, g), f) == Filter(xs, f)
  {
    if |xs| > 0 {
      FilterOfFilter(xs[1..], g, f);
      var head := if g(xs[0]) then [xs[0]] else [];
      FilterAppend(head, Filter(xs[1..], g), f);
    }
  }

  /** Every element of a filtered sequence comes from a later-or-equal
      position of the original: the survivors of `xs[1..]` are elements at
      positions 1 and up. */
  lemma FilterFromTail<T(!new)>(xs: seq<T>, f: T -> bool, x: T) returns (k: nat)
    requires |xs| > 0 && x in Filter(xs[1..], f)
    ensures 1 <= k < |xs| && xs[k] == x
  {
    assert multiset(Filter(xs[1..], f))[x] > 0;
    assert x in xs[1..];
    var m :| 0 <= m < |xs[1..]| && xs[1..][m] == x;
    k := m + 1;
  }

  /** `apart` holds between every element and every later one. */
  ghost predicate Pairwise<T>(xs: seq<T>, apart: (T, T) -> bool) {
    forall i, j :: 0 <= i < j < |xs| ==> apart(xs[i], xs[j])
  }

  /** An element apart from every element of a pairwise-apart sequence may
      go in front of it. */
  lemma ConsPairwise<T>(h: T, rest: seq<T>, apart: (T, T) -> bool)
    requires Pairwise(rest, apart)
    requires forall x :: x in rest ==> apart(h, x)
    ensures Pairwise([h] + rest, apart)
  {
    var r := [h] + rest;
    forall i, j | 0 <= i < j < |r|
      ensures apart(r[i], r[j])
    {
      assert r[j] == rest[j - 1];
      if i > 0 {
        assert r[i] == rest[i - 1];
      }
    }
  }

  /** A relation that holds between every earlier and later element still
      holds after filtering. */
  lemma {:induction false} FilterKeepsPairwise<T(!new)>(xs: seq<T>, f: T -> bool, apart: (T, T) -> bool)
    requires Pairwise(xs, apart)
    ensures Pairwise(Filter(xs, f), apart)
  {
    if |xs| > 0 {
      assert Pairwise(xs[1..], apart) by {
        forall i, j | 0 <= i < j < |xs[1..]|
          ensures apart(xs[1..][i], xs[1..][j])
        {
          assert xs[1..][i] == xs[i + 1] && xs[1..][j] == xs[j + 1];
        }
      }
      FilterKeepsPairwise(xs[1..], f, apart);
      var rest := Filter(xs[1..], f);
      if f(xs[0]) {
        forall x | x in rest
          ensures apart(xs[0], x)
        {
          var k := FilterFromTail(xs, f, x);
        }
        ConsPairwise(xs[0], rest, apart);
        assert Filter(xs, f) == [xs[0]] + rest;
      } else {
        assert Filter(xs, f) == rest;
      }
    }
  }

  /** Every element of a filtered sequence is an element of the original. */
  lemma FilterWithin<T(!new)>(xs: seq<T>, f: T -> bool)
    ensures forall x :: x in Filter(xs, f) ==> x in xs
  {
    forall x | x in Filter(xs, f)
      ensures x in xs
    {
      assert multiset(Filter(xs, f))[x] > 0;
    }
  }

  /** Two cart rows with different keys. */
  predicate KeysApart(a: CartItem, b: CartItem) {
    a.id != b.id
  }

  /** Two cart rows for different (user, product) pairs. */
  predicate PairsApart(a: CartItem, b: CartItem) {
    a.userId != b.userId || a.productId != b.productId
  }

  /** Dropping cart rows keeps the remaining keys distinct and below the
      counter. */
  lemma FilterKeepsCartKeys(cart: seq<CartItem>, f: CartItem -> bool, next: int)
    requires CartKeys(cart, next)
    ensures CartKeys(Filter(cart, f), next)
  {
    assert Pairwise(cart, KeysApart);
    FilterKeepsPairwise(cart, f, KeysApart);
    var r := Filter(cart, f);
    FilterWithin(cart, f);
    forall i | 0 <= i < |r|
      ensures r[i].id < next
    {
      assert r[i] in cart;
    }
  }

  /** Dropping cart rows keeps one row per (user, product). */
  lemma FilterKeepsCartUnique(cart: seq<CartItem>, f: CartItem -> bool)
    requires CartUnique(cart)
    ensures CartUnique(Filter(cart, f))
  {
    assert Pairwise(cart, PairsApart);
    FilterKeepsPairwise(cart, f, PairsApart);
  }

  /** Dropping cart rows keeps every remaining row's product in place. */
  lemma FilterKeepsCartProducts(cart: seq<CartItem>, f: CartItem -> bool, products: seq<Product>)
    requires CartProductsExist(cart, products)
    ensures CartProductsExist(Filter(cart, f), products)
  {
    FilterWithin(cart, f);
  }

  /** The cart rows that belong to `userId`, in store order. */
  function RowsOf(cart: seq<CartItem>, userId: int): (r: seq<CartItem>)
    ensures |r| <= |cart|
    ensures forall i :: 0 <= i < |r| ==> r[i].userId == userId
    ensures forall c :: multiset(r)[c] == if c.userId == userId then multiset(cart)[c] else 0
  {
    Filter(cart, (c: CartItem) => c.userId == userId)
  }

  /** The cart rows that belong to anybody but `userId`, in store order. */
  function RowsNotOf(cart: seq<CartItem>, userId: int): (r: seq<CartItem>)
    ensures |r| <= |cart|
    ensures forall i :: 0 <= i < |r| ==> r[i].userId != userId
    ensures forall c :: multiset(r)[c] == if c.userId != userId then multiset(cart)[c] else 0
  {
    Filter(cart, (c: CartItem) => c.userId != userId)
  }

  /** The cart rows that name any product but `productId`, in store order. */
  function RowsNotFor(cart: seq<CartItem>, productId: int): (r: seq<CartItem>)
    ensures |r| <= |cart|
    ensures forall i :: 0 <= i < |r| ==> r[i].productId != productId
    ensures forall c :: multiset(r)[c] == if c.productId != productId then multiset(cart)[c] else 0
  {
    Filter(cart, (c: CartItem) => c.productId != productId)
  }

  /** The orders placed by `userId`, in store order. */
  function OrdersOf(orders: seq<Order>, userId: int): (r: seq<Order>)
    ensures |r| <= |orders|
    ensures forall i :: 0 <= i < |r| ==> r[i].userId == userId
    ensures forall o :: multiset(r)[o] == if o.userId == userId then multiset(orders)[o] else 0
  {
    Filter(orders, (o: Order) => o.userId == userId)
  }

  /** Dropping one user's rows keeps every other user's rows exactly, order
      included. */
  lemma RowsOfRowsNotOf(cart: seq<CartItem>, removed: int, userId: int)
    requires userId != removed
    ensures RowsOf(RowsNotOf(cart, removed), userId) == RowsOf(cart, userId)
  {
    FilterOfFilter(cart, (c: CartItem) => c.userId != removed, (c: CartItem) => c.userId == userId);
  }

  /** Once a user's rows are dropped, none of them are left. */
  lemma RowsOfAfterRemoval(cart: seq<CartItem>, userId: int)
    ensures RowsOf(RowsNotOf(cart, userId), userId) == []
  {
  }
}

=== FILE: seed.dfy ===
/** `DbInitializer.Initialize`: the start-up seeding of a default
    administrator. `hash` stands for `BCrypt.HashPassword`. */
module DbInitializer {
  import opened Models

  const SeedUsername: string := "admin"
  const SeedPassword: string := "123456"

  /** Adds the `admin` account, role `Admin`, when the users table is empty;
      does nothing when anybody is registered. Only the users table and its
      counter can change. */
  function Initialize(s: Store, hash: string -> string): (r: Store)
    ensures |r.users| > 0
    ensures |s.users| > 0 ==> r == s
    ensures |s.users| == 0 ==>
      && r.users == [User(s.nextUserId, SeedUsername, hash(SeedPassword), AdminRole)]
      && r.nextUserId == s.nextUserId + 1
    ensures r == s.(users := r.users, nextUserId := r.nextUserId)
    ensures Valid(s) ==> Valid(r)
  {
    if |s.users| > 0 then s
    else s.(users := [User(s.nextUserId, SeedUsername, hash(SeedPassword), AdminRole)],
            nextUserId := s.nextUserId + 1)
  }

  /** Seeding twice leaves the store exactly as seeding once. */
  lemma InitializeIdempotent(s: Store, hash: string -> string)
    ensures Initialize(Initialize(s, hash), hash) == Initialize(s, hash)
  {
  }
}
